=== FILE: README.md ===
# chat-tui core in Dafny

chat-tui is a terminal chat client. A login screen sends credentials. A
recent-chat list, a contact screen and a group manager sit behind a
navigation bar. A chat view shows the transcript of the open conversation
and lets the user type into it. The application loop routes terminal
events through a per-mode keymap. It then drains a queue of typed actions,
offering each one to every component in list order.

This project models that interaction logic as pure functions over
immutable datatypes and proves properties of it:

| file | module | models |
|---|---|---|
| base.dfy | Base | `Option`, `Result`, the `Outcome` of a call that may panic or fail, `u16`/`usize` arithmetic, `Rect` |
| actions.dfy | Actions | `Action`, `ConfirmEvent`, `Mode`, key events, the mode cell, the logged-in user |
| user_input.dfy | TextInput | the single-line editor `UserInput` |
| area_util.dfy | AreaUtil | `cal_center_area` |
| event.dfy | EventStream | the push-message types, `parse`, `MessageTarget` to `String`, `get_content`, the stream's `update` |
| conversation.dfy | Conversation | `ChatVo` and the shared `CHAT_VO` slot |
| chat.dfy | ChatView | the chat view: sub-state, scrolling, sending, history fetch, the incoming-message filter |
| login.dfy | LoginScreen | the login form and the login request's outcome |
| recent_chat.dfy | RecentChatList | the recent-chat list and the hand-over of a row to the chat view |
| contact.dfy | ContactList | the friend list and the user search |
| group_manager.dfy | GroupManagerScreen | the group manager |
| navigation.dfy | NavigationBar | the tabs, `NextTab`, `cal_padding` |
| app.dfy | AppLoop | event translation, key and chord routing, the action drain, the suspend/quit check |

Side effects become values:

- **Panics.** An `unwrap` on `None` and an empty-history `last().unwrap()`
  return `Outcome.Panic`. Integer overflow is modelled as in a build with
  overflow checks on, such as a debug build: an overflowing `u16` or
  `usize` addition or multiplication also returns `Outcome.Panic`.
- **Errors.** An error propagated with `?` is `Outcome.Fail`.
- **Network replies.** Each HTTP reply is a `Result` parameter. This covers
  login, history, friends, search, group detail, recent chats and the
  read-index update.
- **Foreign code.** The JSON decoder, the token parser, the user-detail
  lookup and the line estimator are function parameters.
- **The list widget.** The row a list selection lands on is a parameter.
- **The editor's value.** The value an editor reports as committed
  (`data()`) is a parameter. It is not defined anywhere in the code.
- **Screens inside the loop.** The application loop is generic over the
  world its components share. Each component is a record of step
  functions. The drain carries a fuel bound.

The code does not agree with itself in a few places, so the model
reconciles it minimally:

- **`Mode` gains `GroupManager`.** The group manager and the navigation bar
  use it, but the enum in src/app.rs:47-55 lacks it.
- **`ConfirmEvent` gains `Nothing`.** The login screen uses it.
- **`Action` gains `PlainConfirm`.** This stands for the payload-less
  `Action::Confirm` that src/components/login.rs:195 compares against.
- **The login alert carries `Some(Nothing)`.** src/components/login.rs:215
  passes a bare `ConfirmEvent::Nothing` where an `Option` is expected.
- **`InputData` gains `Search`, and `UserInput` gains `is_editing`.** The
  callers use both.
- **`UserInput::new`** is `todo!()` in the code. It builds what its callers
  expect: an empty buffer, cursor 0, not editing, and the given committed
  value.
- **`ManageAction` and `ToChat`** are imported by action.rs from files that
  do not declare them. They are small stand-in datatypes.

A few behaviours one might expect of this client are not in the code, and
the model does not add them:

- A chord is recognised only within one tick, and a matched chord is not
  cleared.
- The chat view's filter for one-to-one messages does not check which
  friend is open.
- There is no unread counting, no `ToChat` handling and no live alert.
- Submitting an editor resets it, which also drops its committed value. A
  second Enter in the same field therefore panics
  (`GroupManagerScreen.SecondInviteSubmitPanics`).

## Model

| member | source | states |
|---|---|---|
| Actions.InitialModeHolder | src/app.rs:46-60 | the application starts in the login mode |
| Actions.SetMode | src/app.rs:62-79 | a read after a write returns the mode written |
| Actions.LastWriteWins | src/app.rs:62-79 | of two writes only the second is observable |
| TextInput.SetInput | src/components/user_input.rs:34-48 | replaces the value and keeps the kind of input |
| TextInput.New | src/components/login.rs:36-43 | a new editor is empty, at cursor 0, not editing, and holds the given committed value |
| TextInput.ClampCursor | src/components/user_input.rs:148-150 | the clamped cursor never passes the character count |
| TextInput.MoveCursorLeft | src/components/user_input.rs:94-97 | the cursor stays in range; at 0 it stays at 0, otherwise it moves back one; nothing else changes |
| TextInput.MoveCursorRight | src/components/user_input.rs:99-102 | the cursor stays in range; at the end it stays at the end, otherwise it moves forward one; nothing else changes |
| TextInput.EnterChar | src/components/user_input.rs:104-110 | the character is inserted at the cursor's character position, the cursor advances by one and stays in range |
| TextInput.DeleteChar | src/components/user_input.rs:124-146 | at cursor 0 nothing changes; otherwise the character before the cursor is removed and the cursor moves back one |
| TextInput.Reset | src/components/user_input.rs:152-176 | buffer, committed value, cursor and cursor position are cleared; editing style and sent values are kept |
| TextInput.ResetIdempotent | src/components/user_input.rs:172-176 | resetting twice is resetting once |
| TextInput.SubmitMessage | src/components/user_input.rs:165-170 | panics exactly when there is no committed value; otherwise sends it carrying the buffer, then resets |
| TextInput.SetCursorPosition | src/components/user_input.rs:192-200 | the cursor is drawn at (x + cursor + 1, y + 1); panics exactly when a `u16` addition overflows |
| TextInput.CursorInsideRegion | src/components/user_input.rs:192-200 | in a region wide enough for the cursor, the drawn cursor lies inside the region's border |
| TextInput.CalHigh | src/components/user_input.rs:183-190 | the larger of height/5 and 3n+2 (as `u16`); panics when 3n+2 overflows `usize`, naming the multiplication or the addition that overflowed |
| TextInput.Utf8LenAppend | src/components/user_input.rs:116-122 | the UTF-8 length of a concatenation is the sum of the lengths |
| TextInput.Utf8LenProperPrefix | src/components/user_input.rs:116-122 | a proper prefix has a shorter UTF-8 encoding |
| TextInput.Utf8LenAscii | src/components/user_input.rs:116-122 | ASCII text takes one byte per character |
| TextInput.ByteIndex | src/components/user_input.rs:116-122 | the byte offset of the cursor's character, or the byte length when the cursor is at or past the end; equal to the cursor on ASCII text |
| TextInput.EnterCharAtByteOffset | src/components/user_input.rs:104-122 | inserting at the character position is inserting at the byte offset `byte_index` computes |
| TextInput.EditsKeepInvariant | src/components/user_input.rs:94-146 | any run of edits keeps 0 ≤ cursor ≤ character count and leaves the committed value, editing style and sent values alone |
| TextInput.EnterThenDelete | src/components/user_input.rs:104-163 | typing a character and deleting it restores the text and the cursor (`input` may become `Some("")`) |
| TextInput.SubmitAfterEdits | src/components/user_input.rs:94-170 | after any edits, submitting sends the edited buffer |
| TextInput.EditOfKey | src/components/login.rs:174-177 | exactly the character, Backspace, Left and Right keys edit |
| TextInput.EditByKey | src/components/login.rs:174-177 | a character key inserts, Backspace deletes, Left/Right move, any other key changes nothing |
| TextInput.TypingAppends | src/components/user_input.rs:104-110 | typing a string with the cursor at the end appends it and leaves the cursor at the new end |
| AreaUtil.CalCenterArea | src/components/area_util.rs:87-101 | keeps x and width; the height is min(lines+2, area height), where the estimator is given width ⊖ 2; the result lies vertically inside the area; panics exactly when a `u16` addition overflows |
| AreaUtil.CalCenterAreaNoOverflow | src/components/area_util.rs:87-101 | for a region inside the `u16` range and a short text, no step overflows and the height is min(lines+2, area height) |
| AreaUtil.CalCenterAreaCentred | src/components/area_util.rs:93-100 | the spare rows are split evenly above and below, the extra row going below |
| EventStream.GetContentIgnoresReply | src/components/event.rs:186-193 | both kinds of message give their inner content, whatever the reply id |
| EventStream.Update | src/components/event.rs:29-34 | the fetch flag is set after the action iff it was set before or the action is LoginSuccess; no action is returned |
| EventStream.UpdateAllArms | src/components/event.rs:29-34 | over any run of actions the flag ends set iff it started set or the run holds a LoginSuccess |
| EventStream.NatToString | src/components/event.rs:159-168 | the decimal form is a non-empty string of digits |
| EventStream.NatToStringRoundTrip | src/components/event.rs:159-168 | reading the decimal form back gives the number |
| EventStream.MinusIffNegative | src/components/event.rs:159-168 | the decimal form starts with '-' exactly for negative numbers |
| EventStream.IntToStringInjective | src/components/event.rs:159-168 | distinct `i32` values have distinct decimal forms |
| EventStream.TargetToStringInjective | src/components/event.rs:159-168 | distinct message targets have distinct strings (`MessageTargetUser:{uid}`, `MessageTargetGroup:{gid}`) |
| EventStream.IndexOf | src/components/event.rs:95 | the first occurrence of a character, or the length when there is none |
| EventStream.Lines | src/components/event.rs:95 | no line holds a newline |
| EventStream.LinesCons | src/components/event.rs:95 | a line followed by a newline is the first line, without a trailing carriage return |
| EventStream.LinesOfJoinLines | src/components/event.rs:95 | splitting newline-terminated lines gives the lines back |
| EventStream.TrimStartMatches | src/components/event.rs:97 | the result no longer starts with the pattern |
| EventStream.TrimStartMatchesSuffix | src/components/event.rs:97 | the result is a suffix of the line: only a prefix is removed |
| EventStream.TrimStartMatchesRepeat | src/components/event.rs:97 | any number of leading "data:" prefixes are all removed, and nothing more |
| EventStream.TrimStart | src/components/event.rs:97 | removes exactly the leading whitespace |
| EventStream.TrimEnd | src/components/event.rs:97 | removes exactly the trailing whitespace |
| EventStream.FindMapNone | src/components/event.rs:95-102 | `find_map` finds nothing iff no line yields anything |
| EventStream.FindMapFirst | src/components/event.rs:95-102 | what `find_map` finds is what the first line that yields anything yields |
| EventStream.ParseWithoutDataLine | src/components/event.rs:94-103 | a frame without a "data:" line parses to nothing |
| EventStream.PayloadOfDataLine | src/components/event.rs:96-97 | the payload of `data: <json>` is the JSON text |
| EventStream.LinesOfFrame | src/components/event.rs:95 | a line followed by a blank line splits into the line and an empty line |
| EventStream.FrameFindMap | src/components/event.rs:95-102 | a trailing blank line contributes nothing |
| EventStream.DataLineIsPlain | src/components/event.rs:95-96 | a one-line data frame's first line is the data line |
| EventStream.ParseSingleFrame | src/components/event.rs:94-103 | `data: <json>` followed by a blank line parses to the decoding of the JSON text |
| Conversation.Recipient | src/components/chat.rs:110-119 | one-to-one conversations send to the friend, group conversations to the group |
| Conversation.InitialHolder | src/components/chat.rs:27-32 | the slot starts empty with nothing to fetch |
| Conversation.SetChatVo | src/components/chat.rs:41-44 | stores the conversation and asks for its history |
| Conversation.SetChatVoOverwrites | src/components/chat.rs:41-44 | publishing twice is publishing the second conversation |
| ChatView.NewChat | src/components/chat.rs:57-71 | an empty transcript, the reading state, scroll 0 and an empty message editor |
| ChatView.NextState | src/components/chat.rs:73-84 | toggles History↔Chat; the editor is in editing style iff the new state is Chat; nothing else changes |
| ChatView.NextStateTwice | src/components/chat.rs:73-84 | toggling twice restores the screen |
| ChatView.ResetScroll | src/components/chat.rs:100-105 | offset and scrollbar position return to 0 |
| ChatView.ScrollDown | src/components/chat.rs:298-304 | one line further, saturating at `usize::MAX`, with no clamp to the transcript |
| ChatView.ScrollUp | src/components/chat.rs:305-311 | one line back, stopping at 0 |
| ChatView.ScrollInverse | src/components/chat.rs:298-311 | Up undoes Down below the saturation point, and Down undoes Up above 0 |
| ChatView.SendMsg | src/components/chat.rs:108-124 | a committed text is sent to the open conversation's recipient; panics when a text is committed but no conversation is open |
| ChatView.HandleKeyEvent | src/components/chat.rs:289-334 | outside the chat mode nothing changes; while reading, Esc goes to the list, the arrows scroll and 'e' starts typing; while typing, Enter submits, sends and resets, Esc stops typing and editing keys edit; no action is returned |
| ChatView.KeyEventModeChange | src/components/chat.rs:295-329 | the only mode change is Esc while reading, to the recent-chat list |
| ChatView.KeyEventKeepsEditing | src/components/chat.rs:289-334 | keys keep the editing style in step with the state and never touch the transcript |
| ChatView.Tagged | src/components/chat.rs:194-228 | fetched entries keep their order and are tagged with the conversation's kind |
| ChatView.FetchHistory | src/components/chat.rs:194-242 | the transcript is replaced by the fetched entries in order and the read mark is the last one's id; an empty history panics; a fetch error fails with "Failed to fetch chat history:" and its text, a failed read-mark update with "failed to send request:" and the worker's join error |
| ChatView.Update | src/components/chat.rs:336-352 | fetches only in the list or chat mode, with a conversation open, the flag set and the reading state; the flag is then cleared and the scroll reset; otherwise nothing changes |
| ChatView.FetchExactlyOnce | src/components/chat.rs:336-352 | after opening a conversation, the next update fetches it and the one after that does nothing |
| ChatView.SenderName | src/components/chat.rs:133-188 | the logged-in user's own name for their own messages (a one-to-one message to themselves excepted); otherwise the looked-up name, panicking exactly when a lookup is needed and fails |
| ChatView.Receive | src/components/chat.rs:133-188 | a group message is appended iff a group with that id is open; a one-to-one message is appended iff a one-to-one conversation is open and the user is the target or the sender; the appended entry carries the message's id, content, time and sender with the sender's name; an accepted message panics exactly when a needed name lookup fails, anything else leaves the screen as it was; with no user logged in, panics exactly when it reads the user |
| ChatView.OtherGroupIgnored | src/components/chat.rs:163-166 | a group message never enters another conversation's transcript |
| ChatView.ReceiveAllAppends | src/components/chat.rs:130-190 | over a run of messages the transcript only grows at its end, by the number of accepted messages |
| LoginScreen.NewLogin | src/components/login.rs:33-46 | both editors empty, idle state, no field editing |
| LoginScreen.NextState | src/components/login.rs:48-64 | cycles idle→name→password→idle; only the field being edited is in editing style |
| LoginScreen.NextStateCycle | src/components/login.rs:48-64 | three steps come back to the same form |
| LoginScreen.HandleKeyEvent | src/components/login.rs:159-192 | outside the login mode nothing changes; idle, only 'e' acts; Enter submits the edited field and advances; editing keys edit only the edited field; panics iff Enter submits a field without a committed value; no action is returned |
| LoginScreen.KeyEventKeepsEditing | src/components/login.rs:159-192 | keys keep the editing style in step with the state |
| LoginScreen.HandleKeysAppend | src/components/login.rs:159-192 | handling two runs of keys is handling their concatenation |
| LoginScreen.TypingIntoName | src/components/login.rs:174-177 | while the name is edited, typed text goes into the name editor only |
| LoginScreen.TypingIntoPassword | src/components/login.rs:185-188 | while the password is edited, typed text goes into the password editor only |
| LoginScreen.FillInForm | src/components/login.rs:159-192 | 'e', a name, Enter, a password, Enter from a fresh screen leaves it idle, with exactly that name and password sent |
| LoginScreen.Update | src/components/login.rs:194-221 | acts only on Confirm in the login mode; panics when either field has no value; on success it stores the user and token and moves to the recent-chat list; on failure it returns an alert and keeps the mode |
| LoginScreen.NoLoginSuccessEmitted | src/components/login.rs:207-220 | a confirmation never returns LoginSuccess |
| LoginScreen.LeavesLoginOnlyOnSuccess | src/components/login.rs:207-220 | the login mode is left only through a successful reply, and then the user and the token are stored |
| RecentChatList.NewRecentChat | src/components/recent_chat.rs:166-175 | no rows and no selection |
| RecentChatList.SendChat | src/components/recent_chat.rs:203-214 | the selected row is published only when it exists; otherwise the slot is unchanged |
| RecentChatList.SendChatPublishesARow | src/components/recent_chat.rs:203-214 | the slot after a hand-over is unchanged or holds a row of the list with its history requested |
| RecentChatList.HandleKeyEvent | src/components/recent_chat.rs:218-237 | outside the list mode nothing changes; Down/Up move the selection and hand the row over; Enter opens the chat view; nothing else reacts; no action is returned |
| RecentChatList.KeyEventKeepsRows | src/components/recent_chat.rs:218-237 | keys never change the rows, and the only mode they switch to is the chat view |
| RecentChatList.Update | src/components/recent_chat.rs:239-256 | on LoginSuccess with a user, the rows are replaced on success and kept on error; otherwise nothing changes; no action is returned |
| RecentChatList.ChooseThenOpen | src/components/recent_chat.rs:203-237 | choosing a row and pressing Enter opens the chat view on that conversation with its history requested |
| ContactList.NewContact | src/components/contact.rs:38-53 | the friend list is still to be fetched; no friends, no results, browsing |
| ContactList.NextState | src/components/contact.rs:55-66 | toggles Friends↔Search; the editor is in editing style iff the new state is Search; nothing else changes |
| ContactList.CleanSearch | src/components/contact.rs:68-71 | the results are dropped and the search field reset; nothing else changes |
| ContactList.ResultsOf | src/components/contact.rs:76-84 | one (name, is-friend) row per user found, in order |
| ContactList.SearchFor | src/components/contact.rs:73-90 | a success replaces the results wholesale; a failure leaves them unchanged |
| ContactList.SearchResultNames | src/components/contact.rs:73-90 | a name is among the results iff the search returned a user of that name |
| ContactList.HandleKeyEvent | src/components/contact.rs:155-186 | outside the contact mode nothing changes; browsing, 'e' starts searching and the arrows move; searching, Enter submits and searches, Esc cleans up and stops searching, editing keys edit; panics iff Enter finds no committed value; no action is returned |
| ContactList.KeyEventKeepsFriends | src/components/contact.rs:155-186 | keys keep the editing style in step and never touch the friend list or its fetch flag |
| ContactList.SearchThenLeave | src/components/contact.rs:158-180 | 'e' then Esc comes back to browsing with no results and an empty search field |
| ContactList.Update | src/components/contact.rs:188-204 | fetches only in the contact mode, browsing, with the flag set; only a success clears the flag and replaces the friends |
| ContactList.FriendsFetchedOnce | src/components/contact.rs:188-204 | after a successful fetch no later update changes the screen |
| GroupManagerScreen.NewGroupManager | src/components/group_manager.rs:121-137 | no group, an empty detail, the browsing state and an empty invite field |
| GroupManagerScreen.NextState | src/components/group_manager.rs:175-186 | toggles GroupDetail↔InviteFriend with the matching editing style; nothing else changes |
| GroupManagerScreen.NextStateTwice | src/components/group_manager.rs:175-186 | toggling twice restores the screen |
| GroupManagerScreen.HandleKeyEvent | src/components/group_manager.rs:32-69 | outside the group manager mode nothing changes; Esc goes to the chat view in both states; 'e' starts inviting; the arrows move; while inviting, Enter only submits and editing keys edit; panics iff Enter finds no committed value; no action is returned |
| GroupManagerScreen.InvitingIsAbsorbing | src/components/group_manager.rs:46-65 | once inviting, no key returns to browsing, because the second Esc arm is unreachable |
| GroupManagerScreen.SecondInviteSubmitPanics | src/components/group_manager.rs:50-53 | a second Enter while inviting panics, because submitting drops the committed value |
| GroupManagerScreen.Update | src/components/group_manager.rs:71-83 | Group(gid) records the id and switches to the group manager mode, replacing the detail only on success; other actions change nothing |
| GroupManagerScreen.OpenThenLeave | src/components/group_manager.rs:32-83 | opening a group then pressing Esc returns to the chat view with the group's members kept |
| NavigationBar.Index | src/components/navigation.rs:38-46 | tabs are numbered 0, 1, 2 in declaration order |
| NavigationBar.FromRepr | src/components/navigation.rs:38-46 | a position names a tab iff it is below 3 |
| NavigationBar.FromReprRoundTrip | src/components/navigation.rs:38-46 | positions and tabs correspond one to one |
| NavigationBar.Circle | src/components/navigation.rs:49-55 | the next position, wrapping modulo 3 |
| NavigationBar.CircleThrice | src/components/navigation.rs:49-55 | three steps are the identity and fewer are not |
| NavigationBar.Previous | src/components/navigation.rs:58-62 | stays on the first tab, otherwise steps back one |
| NavigationBar.Next | src/components/navigation.rs:65-69 | stays on the last tab, otherwise steps forward one |
| NavigationBar.PreviousNextInverse | src/components/navigation.rs:58-69 | `previous` undoes `next` except on the last tab, and the other way round except on the first |
| NavigationBar.NewNavigation | src/components/navigation.rs:19-24 | the first tab is highlighted |
| NavigationBar.NextMode | src/components/navigation.rs:28-33 | the three main modes cycle and every other mode is kept |
| NavigationBar.NavNext | src/components/navigation.rs:26-35 | the mode moves on while the highlighted tab stays |
| NavigationBar.Update | src/components/navigation.rs:89-99 | only NextTab in a main mode acts; no action is returned |
| NavigationBar.TabOf | src/components/navigation.rs:28-33 | exactly the three main modes have a tab |
| NavigationBar.ThreeTabsComeBack | src/components/navigation.rs:89-99 | three NextTabs return to the starting mode after passing through the other two |
| NavigationBar.HighlightLagsMode | src/components/navigation.rs:26-35 | after the first NextTab the highlight no longer shows the mode |
| NavigationBar.NavNextIntended | src/components/navigation.rs:26-35 | the intended `next`: the highlight advances with the mode |
| NavigationBar.UpdateIntended | src/components/navigation.rs:89-99 | `update` with the intended `next`: NextTab in a main mode advances both the highlight and the mode; other actions change nothing |
| NavigationBar.IntendedHighlightFollowsMode | src/components/navigation.rs:89-99 | with the intended `next`, a highlight that shows the mode keeps showing it |
| NavigationBar.HighlightAdvancesWithMode | src/components/navigation.rs:89-99 | with the intended `next`, NextTab in a main mode moves to another mode, and the highlight moves one tab round to show it |
| NavigationBar.CjkWidth | src/components/navigation.rs:138 | each character takes one or two columns |
| NavigationBar.NaviWidthIs38 | src/components/navigation.rs:137-140 | the labels are four ideographs each, so the tabs need 38 columns |
| NavigationBar.CalPadding | src/components/navigation.rs:135-147 | 0 when the bar is narrower than the tabs, else the largest p with tabs + 6p ≤ width |
| NavigationBar.PaddedTabsFit | src/components/navigation.rs:135-147 | the padded tabs fit into the bar whenever the bar can hold the tabs |
| AppLoop.RouteKey | src/app.rs:166-189 | with no keymap for the mode nothing happens; a bound single key sends its action and leaves the buffer; otherwise the key is appended and an action is sent iff the whole buffer is bound |
| AppLoop.Translate | src/app.rs:150-157 | Quit/Tick/Render/Resize enqueue exactly the matching action; a key goes to routing; only a key touches the buffer |
| AppLoop.Emitted | src/app.rs:210-214 | a returned action becomes one queued action, no action none |
| AppLoop.Broadcast | src/app.rs:210-214 | a single component's reaction is passed through, its returned action becoming the one follow-up; at most one follow-up per component; with `BroadcastAppend`, the components react in list order |
| AppLoop.BroadcastAppend | src/app.rs:210-214 | offering to two lists in a row is offering to their concatenation, with the follow-ups in order |
| AppLoop.HandleEvents | src/app.rs:145-164 | no event does nothing; otherwise translation is queued first, then the components' follow-ups in list order |
| AppLoop.DrawAll | src/app.rs:225-236 | a successful draw queues nothing, a failed draw queues exactly one `Error("Failed to draw: …")`, a panic stops the pass; only Error actions are queued |
| AppLoop.DrawAllAppend | src/app.rs:225-236 | drawing two lists in a row is drawing their concatenation, with the Error actions in order |
| AppLoop.OwnReaction | src/app.rs:196-204 | Tick empties the buffer, Quit raises the quit flag, Suspend and Resume set and clear the suspend flag; other actions change none of them |
| AppLoop.OpsOf | src/app.rs:205-223 | ClearScreen clears, Resize resizes then draws, Render draws |
| AppLoop.Step | src/app.rs:192-215 | the loop reacts first; for Render and Resize every component then draws, with draw errors queued first; then every component sees the action in list order and its follow-ups join the back of the queue; a panic or error at either stage ends the step |
| AppLoop.Drain | src/app.rs:191-217 | FIFO: what was queued plus what was produced is what was handled followed by what remains; a complete drain leaves the queue empty; the quit flag is up iff it was or a Quit was handled; the last Suspend/Resume decides the suspend flag; the buffer is emptied iff a Tick was handled; with `DrainIsStepFold`, the handled actions went through `Step` in order |
| AppLoop.StepIgnoresQueue | src/app.rs:191-216 | handling an action does not depend on what else is queued; the queue only receives the follow-ups |
| AppLoop.DrainIsStepFold | src/app.rs:191-216 | a drain is the handled actions, each stepped in order through the loop and every component; the final state and the reported follow-ups are the fold's |
| AppLoop.DrainStep | src/app.rs:192-215 | one round of the drain keeps that accounting |
| AppLoop.AfterDrain | src/app.rs:130-139 | when suspended, Resume then ClearScreen are queued and the loop goes on; otherwise it stops iff the quit flag is up |
| AppLoop.ResumeWithoutSuspend | src/app.rs:203-204 | a run with a Resume and no Suspend leaves the suspend flag down |
| AppLoop.NoSuspendStaysDown | src/app.rs:203-204 | without a Suspend a lowered flag stays down |
| AppLoop.SuspendIsUndone | src/app.rs:130-135 | after suspending, the next drain handles Resume first and ends with the flag down unless something suspends again |
| AppLoop.ChordWithinTick | src/app.rs:176-186 | two unbound keys whose pair is bound send the pair's action when both arrive within one tick; the pair stays buffered |
| AppLoop.TickBreaksChord | src/app.rs:179-199 | a Tick between the keys empties the buffer, so the second key alone sends nothing |

## Findings

| source | as written | input that shows it | evidently intended | confidence | as-written member | corrected member |
|---|---|---|---|---|---|---|
| src/components/navigation.rs:27 | `self.item.circle();` discards the tab `circle` returns, so the highlighted tab never changes | NextTab in the recent-chat mode from a new bar: the mode becomes Contact while the first tab stays highlighted | the highlight advances with the mode (`self.item = self.item.circle()`) | high, not executed | NavigationBar.HighlightLagsMode | NavigationBar.HighlightAdvancesWithMode |

The rest of the model keeps the code as written. `NavigationBar.Update`
is the bar the code has, and `NavigationBar.UpdateIntended` is the
corrected one.

## Left out

- The HTTP calls are not modelled. These are login, history, send, read
  index, friends, search, group detail and recent chats. They are network
  I/O, so their replies are `Result` parameters.
- `proxy::send_request`, the broadcast listener loop in `refresh`,
  `Event::run`, `check_need_fetch`, `renew` and `start_update_thread` are
  threads and blocking bridges. Only the per-message decision of `refresh`
  is modelled.
- A `JoinError` from `send_request` is not modelled. It is a thread failure
  surfaced through `?` in the chat, recent-chat and login screens.
  The one exception is the read-mark update in the chat view. Its
  `expect` panics inside the worker, which reports that panic as an
  error. That case is modelled as `Fail`.
- src/token.rs and the `CURRENT_USER` lock are not modelled. JWT decoding
  is a foreign library, so the token parser is a parameter, and the
  current user is a parameter.
- src/datetime.rs is not modelled. It uses a clock and a formatting
  library, so timestamps are abstract integers.
- Every `draw` method, the `Text` conversions, styling and the ratatui
  layouts are not modelled. They are rendering. The loop models only
  whether a draw fails.
- TextInput.SetCursorPosition: does not model a release build, where
  overflow checks are off and the `u16` additions wrap modulo 2^16
  instead of panicking. The sources pin no build profile.
- TextInput.CalHigh: does not model a release build, where `3n + 2`
  wraps modulo 2^64 instead of panicking.
- AreaUtil.CalCenterArea: does not model a release build, where the `u16`
  additions wrap modulo 2^16 instead of panicking.
- AppLoop.DrawAll: a failed draw keeps the world from before that draw.
  A `draw` that changes its component and then returns an error would
  keep those changes in the program; the model drops them.
- AppLoop.RouteKey: keys are compared by code and modifiers only.
  crossterm's key equality also compares the kind and state, and folds
  the case of a Shift+letter key. The keymap is a parameter, so this
  only affects which keymaps are meaningful.
- `estimate_line_count` uses `f32` ceiling, so it is a function parameter
  of `AreaUtil.CalCenterArea`.
- ratatui's `ListState` is not modelled. The row a selection lands on is a
  parameter.
- src/components/alert.rs is not modelled, because its key and update
  logic is commented out.
- src/components/setting.rs only draws, and src/logging.rs only
  configures, so neither is modelled.
- `UserInput`'s `Component` and `Widget` impls and `close` are not
  modelled. They are gated on a `Mode::Input` that does not exist.
- The channel inside `UserInput` is modelled as the `submitted` list of
  sent values, because the receiver lives in the same editor.
- `{:#?}` and `{:?}` error formatting is not modelled. The login alert and
  the draw error carry the error text itself.
- `Tui` start-up is not modelled. This covers `enter`, the
  registration and `init` of each component, and terminal I/O errors.
  Terminal operations are recorded as values.
- LoginScreen.Update: the login request itself is not modelled. Its reply
  is a parameter.
- AppLoop.Drain: a chain of follow-up actions need not end. The drain
  handles at most `fuel` actions and reports when it stopped early.
- AppLoop.Step: the components share one abstract world. The model does not
  say which screen a component is. The screen modules give each
  component's own behaviour.
- NavigationBar.CjkWidth: only the CJK Unified Ideographs block is given
  double width. That covers the tab labels, not the full East Asian Width
  table.

=== FILE: actions.dfy ===
/** The values that flow through the dispatch queue and the shared singletons
    every screen reads: the current mode and the logged-in user. */
module Actions {
  import opened Base

  /** The active screen. `GroupManager` is used by the group manager and the
      navigation bar although the enum in app.rs does not list it. */
  datatype Mode = Login | RecentChat | Chat | Contact | Setting | Alert | GroupManager

  /** Sub-actions of group management. action.rs imports the type from the
      group manager file, which does not declare it; these variants are a
      stand-in and no behaviour depends on them. */
  datatype ManageAction = Evict | Forbid | UnForbid | SetManager

  /** The conversation target carried by `Action::ToChat`. action.rs
      imports the type from the contact file, which does not declare it;
      this shape is a stand-in and no behaviour depends on it. */
  datatype ToChat = ToChatUser(uid: int, name: string) | ToChatGroup(gid: int, name: string)

  /** What an Alert does when confirmed. `Nothing` is used by the login screen
      although action.rs does not declare it. */
  datatype ConfirmEvent =
    | InviteFriend
    | GroupManage(manage: Option<ManageAction>)
    | AddFriend(uid: int)
    | ConfirmFriendReq(decision: Option<bool>)
    | Nothing

  /** The typed events of the dispatch queue. `PlainConfirm` is the
      payload-less `Action::Confirm` the login screen compares against. */
  datatype Action =
    | Tick
    | Render
    | Resize(w: nat, h: nat)
    | Suspend
    | Resume
    | Quit
    | ClearScreen
    | Error(message: string)
    | Help
    | Alert(text: string, confirm: Option<ConfirmEvent>)
    | Submit
    | LoginSuccess
    | Confirm(event: ConfirmEvent)
    | PlainConfirm
    | NextTab
    | Register
    | Group(gid: int)
    | ToChat(target: ToChat)

  /** The key codes the screens react to; every other code is `OtherKey`. */
  datatype KeyCode = Char(c: char) | Enter | Backspace | Left | Right | Up | Down | Esc | OtherKey(tag: nat)

  /** A key press: its code and the modifier bits held with it. */
  datatype KeyEvent = KeyEvent(code: KeyCode, modifiers: nat)

  /** The process-wide mode cell (`ModeHolderLock`); the lock is held only for
      the read or the write, so a cell value is all there is to model. */
  datatype ModeHolder = ModeHolder(mode: Mode)

  /** The mode the application starts in (`Mode::default()`). */
  function InitialModeHolder(): (h: ModeHolder)
    ensures GetMode(h) == Login
  {
    ModeHolder(Login)
  }

  function GetMode(h: ModeHolder): Mode {
    h.mode
  }

  /** Overwrites the cell; no transition is validated here. */
  function SetMode(h: ModeHolder, m: Mode): (r: ModeHolder)
    ensures GetMode(r) == m
  {
    ModeHolder(m)
  }

  /** Only the last write is observable: a write followed by a second one is
      the second one alone, and a read returns what was written last. */
  lemma LastWriteWins(h: ModeHolder, a: Mode, b: Mode)
    ensures SetMode(SetMode(h, a), b) == SetMode(h, b)
    ensures GetMode(SetMode(SetMode(h, a), b)) == b
  {
  }

  /** The logged-in user as the screens see it (the decoded token claims they
      read). */
  datatype User = User(id: int, name: string)

  /** The `CURRENT_USER` singleton: the user and the raw access token. */
  datatype CurrentUser = CurrentUser(user: Option<User>, token: Option<string>)
}

=== FILE: app.dfy ===
/** The application loop: terminal events become actions, keys are routed
    through the per-mode keymap (single keys and multi-key chords), and the
    action queue is drained by offering every action to every component in
    list order, follow-ups going to the back of the same queue.

    The components are abstract: each is a record of step functions over a
    world `W` that holds every screen and the shared singletons (the mode
    cell among them). The terminal is reduced to the operations the loop asks
    of it. */
module AppLoop {
  import opened Base
  import opened Actions

  /** The terminal events the loop receives (`tui::Event`); every event the
      loop does not translate is `Other`. */
  datatype Event = Quit | Tick | Render | Resize(w: nat, h: nat) | Key(key: KeyEvent) | Other(tag: nat)

  /** What a component is given: a terminal event (`handle_events`) or an
      action (`update`). */
  datatype Input = OnEvent(event: Event) | OnAction(action: Action)

  /** A component as the loop sees it. `react` may return a follow-up
      action; `draw` may report an error as text. A `Fail` from `react` is an
      error propagated with `?`; a `Panic` is a panic inside the component. */
  datatype Component<!W> = Component(
    react: (W, Input) -> Outcome<(W, Option<Action>)>,
    draw: W -> Outcome<W>)

  /** The key bindings: for each mode, a map from key sequences to actions. */
  type Keymap = map<Mode, map<seq<KeyEvent>, Action>>

  /** What the loop is built from: the components in list order, the key
      bindings and where the world keeps the current mode. */
  datatype Setup<!W> = Setup(components: seq<Component<W>>, keymap: Keymap, modeOf: W -> Mode)

  /** The loop's own state. `chord` is the buffer of keys pressed since the
      last tick (`last_tick_key_events`), `queue` the action channel in FIFO
      order, `shouldQuit` the `SHOULD_QUIT` flag. */
  datatype App<W> = App(world: W, shouldQuit: bool, shouldSuspend: bool, chord: seq<KeyEvent>, queue: seq<Action>)

  /** What the loop asks of the terminal. */
  datatype TermOp = Clear | ResizeTo(w: nat, h: nat) | Draw | SuspendTui | EnterTui | StopTui

  /** The outcome of routing one key: the chord buffer after it and the
      action sent, if any. */
  datatype Routing = Routing(chord: seq<KeyEvent>, sent: Option<Action>)

  /** `handle_key_event`. With no bindings for the mode nothing happens. A
      key bound on its own sends its action and leaves the buffer alone;
      any other key is appended to the buffer, and the action bound to the
      whole buffer, if any, is sent. A matched chord is not cleared. */
  function RouteKey(keymap: Keymap, mode: Mode, chord: seq<KeyEvent>, key: KeyEvent): (r: Routing)
    ensures mode !in keymap ==> r == Routing(chord, None)
    ensures mode in keymap && [key] in keymap[mode] ==> r == Routing(chord, Some(keymap[mode][[key]]))
    ensures mode in keymap && [key] !in keymap[mode] ==>
      && r.chord == chord + [key]
      && (r.sent.Some? <==> r.chord in keymap[mode])
      && (r.sent.Some? ==> r.sent.value == keymap[mode][r.chord])
    ensures r.chord == chord || r.chord == chord + [key]
  {
    if mode !in keymap then Routing(chord, None)
    else
      var bindings := keymap[mode];
      if [key] in bindings then Routing(chord, Some(bindings[[key]]))
      else
        var chord' := chord + [key];
        if chord' in bindings then Routing(chord', Some(bindings[chord'])) else Routing(chord', None)
  }

  /** The translation half of `handle_events`: Quit, Tick, Render and
      Resize each enqueue exactly the matching action, a key goes through
      the keymap of the current mode, anything else enqueues nothing. Only
      a key touches the chord buffer. */
  function Translate<W>(s: Setup<W>, app: App<W>, e: Event): (r: App<W>)
    ensures r == app.(queue := r.queue, chord := r.chord)
    ensures !e.Key? ==> r.chord == app.chord
    ensures e == Event.Quit ==> r.queue == app.queue + [Action.Quit]
    ensures e == Event.Tick ==> r.queue == app.queue + [Action.Tick]
    ensures e == Event.Render ==> r.queue == app.queue + [Action.Render]
    ensures e.Resize? ==> r.queue == app.queue + [Action.Resize(e.w, e.h)]
    ensures e.Other? ==> r.queue == app.queue
    ensures e.Key? ==>
      var k := RouteKey(s.keymap, s.modeOf(app.world), app.chord, e.key);
      && r.chord == k.chord
      && r.queue == app.queue + (if k.sent.Some? then [k.sent.value] else [])
  {
    match e
    case Quit => app.(queue := app.queue + [Action.Quit])
    case Tick => app.(queue := app.queue + [Action.Tick])
    case Render => app.(queue := app.queue + [Action.Render])
    case Resize(w, h) => app.(queue := app.queue + [Action.Resize(w, h)])
    case Key(key) =>
      var k := RouteKey(s.keymap, s.modeOf(app.world), app.chord, key);
      app.(chord := k.chord, queue := app.queue + (if k.sent.Some? then [k.sent.value] else []))
    case Other(_) => app
  }

  /** The follow-up actions a step produced, as a sequence. */
  function Emitted(a: Option<Action>): (s: seq<Action>)
    ensures a.None? ==> s == []
    ensures a.Some? ==> s == [a.value]
  {
    match a
    case Some(x) => [x]
    case None => []
  }

  /** Offers one input to the components in list order, each seeing the
      world the previous one left, and collects their follow-ups in the
      same order. The first error or panic stops the offer. */
  function Broadcast<W>(comps: seq<Component<W>>, w: W, input: Input): (r: Outcome<(W, seq<Action>)>)
    ensures r.Done? ==> |r.value.1| <= |comps|
    ensures comps == [] ==> r == Done((w, []))
    ensures |comps| == 1 ==>
      match comps[0].react(w, input)
      case Done((w1, out)) => r == Done((w1, Emitted(out)))
      case Panic(why) => r == Panic(why)
      case Fail(e) => r == Fail(e)
    decreases |comps|
  {
    if comps == [] then Done((w, []))
    else
      assert |comps| == 1 ==> comps[1..] == [];
      match comps[0].react(w, input)
      case Done((w1, out)) =>
        (match Broadcast(comps[1..], w1, input)
         case Done((w2, rest)) =>
           assert |comps| == 1 ==> Emitted(out) + rest == Emitted(out);
           Done((w2, Emitted(out) + rest))
         case Panic(why) => Panic(why)
         case Fail(e) => Fail(e))
      case Panic(why) => Panic(why)
      case Fail(e) => Fail(e)
  }

  /** Offering to a list made of two parts is offering to the first part
      and then, from the world it leaves, to the second; the follow-ups come
      in that order. */
  lemma {:induction false} BroadcastAppend<W>(c1: seq<Component<W>>, c2: seq<Component<W>>, w: W, input: Input)
    ensures var r := Broadcast(c1 + c2, w, input);
      match Broadcast(c1, w, input)
      case Done((w1, out1)) =>
        (match Broadcast(c2, w1, input)
         case Done((w2, out2)) => r == Done((w2, out1 + out2))
         case Panic(why) => r == Panic(why)
         case Fail(e) => r == Fail(e))
      case Panic(why) => r == Panic(why)
      case Fail(e) => r == Fail(e)
    decreases |c1|
  {
    if c1 == [] {
      assert c1 + c2 == c2;
      match Broadcast(c2, w, input) {
        case Done((w2, out2)) => assert [] + out2 == out2;
        case Panic(_) =>
        case Fail(_) =>
      }
    } else {
      assert (c1 + c2)[0] == c1[0];
      assert (c1 + c2)[1..] == c1[1..] + c2;
      match c1[0].react(w, input) {
        case Done((w1, out)) =>
          BroadcastAppend(c1[1..], c2, w1, input);
          match Broadcast(c1[1..], w1, input) {
            case Done((w1', rest)) =>
              match Broadcast(c2, w1', input) {
                case Done((w2, out2)) =>
                  assert Emitted(out) + (rest + out2) == (Emitted(out) + rest) + out2;
                case Panic(_) =>
                case Fail(_) =>
              }
            case Panic(_) =>
            case Fail(_) =>
          }
        case Panic(_) =>
        case Fail(_) =>
      }
    }
  }

  /** `handle_events`. With no event nothing happens. Otherwise the event is
      translated, then offered to every component, whose follow-ups are
      enqueued behind the translation in list order. */
  function HandleEvents<W>(s: Setup<W>, app: App<W>, ev: Option<Event>): (r: Outcome<App<W>>)
    ensures ev.None? ==> r == Done(app)
    ensures ev.Some? ==>
      var t := Translate(s, app, ev.value);
      match Broadcast(s.components, app.world, OnEvent(ev.value))
      case Done((w, follow)) => r == Done(t.(world := w, queue := t.queue + follow))
      case Panic(why) => r == Panic(why)
      case Fail(e) => r == Fail(e)
  {
    match ev
    case None => Done(app)
    case Some(e) =>
      var t := Translate(s, app, e);
      match Broadcast(s.components, app.world, OnEvent(e))
      case Done((w, follow)) => Done(t.(world := w, queue := t.queue + follow))
      case Panic(why) => Panic(why)
      case Fail(e) => Fail(e)
  }

  /** The render pass: every component draws in list order; a component
      whose drawing fails leaves the world as it was and has an Error action
      queued in its place. A panic while drawing stops the pass. */
  function DrawAll<W>(comps: seq<Component<W>>, w: W): (r: Outcome<(W, seq<Action>)>)
    ensures !r.Fail?
    ensures r.Done? ==> |r.value.1| <= |comps|
    ensures r.Done? ==> forall i :: 0 <= i < |r.value.1| ==> r.value.1[i].Error?
    ensures |comps| == 1 ==>
      match comps[0].draw(w)
      case Done(w1) => r == Done((w1, []))
      case Fail(e) => r == Done((w, [Action.Error("Failed to draw: " + e)]))
      case Panic(why) => r == Panic(why)
    decreases |comps|
  {
    if comps == [] then Done((w, []))
    else
      assert |comps| == 1 ==> comps[1..] == [];
      var (w1, errs) := match comps[0].draw(w)
        case Done(w') => (w', [])
        case Fail(e) => (w, [Action.Error("Failed to draw: " + e)])
        case Panic(why) => (w, []);
      if comps[0].draw(w).Panic? then Panic(comps[0].draw(w).reason)
      else
        match DrawAll(comps[1..], w1)
        case Done((w2, rest)) =>
          assert |comps| == 1 ==> errs + rest == errs;
          Done((w2, errs + rest))
        case Panic(why) => Panic(why)
        case Fail(e) => Fail(e)
  }

  /** Drawing a list made of two parts is drawing the first part and then,
      from the world it leaves, the second; the Error actions come in that
      order. */
  lemma {:induction false} DrawAllAppend<W>(c1: seq<Component<W>>, c2: seq<Component<W>>, w: W)
    ensures var r := DrawAll(c1 + c2, w);
      match DrawAll(c1, w)
      case Done((w1, out1)) =>
        (match DrawAll(c2, w1)
         case Done((w2, out2)) => r == Done((w2, out1 + out2))
         case Panic(why) => r == Panic(why)
         case Fail(e) => r == Fail(e))
      case Panic(why) => r == Panic(why)
      case Fail(e) => r == Fail(e)
    decreases |c1|
  {
    if c1 == [] {
      assert c1 + c2 == c2;
      match DrawAll(c2, w) {
        case Done((w2, out2)) => assert [] + out2 == out2;
        case Panic(_) =>
        case Fail(_) =>
      }
    } else {
      assert (c1 + c2)[0] == c1[0];
      assert (c1 + c2)[1..] == c1[1..] + c2;
      if !c1[0].draw(w).Panic? {
        var w1 := if c1[0].draw(w).Done? then c1[0].draw(w).value else w;
        var errs := if c1[0].draw(w).Fail? then [Action.Error("Failed to draw: " + c1[0].draw(w).error)] else [];
        DrawAllAppend(c1[1..], c2, w1);
        match DrawAll(c1[1..], w1) {
          case Done((w1', rest)) =>
            match DrawAll(c2, w1') {
              case Done((w2, out2)) =>
                assert errs + (rest + out2) == (errs + rest) + out2;
              case Panic(_) =>
              case Fail(_) =>
            }
          case Panic(_) =>
          case Fail(_) =>
        }
      }
    }
  }

  /** The loop's own reaction to an action, before the components see it:
      Tick empties the chord buffer, Quit raises the quit flag, Suspend and
      Resume set and clear the suspend flag. */
  function OwnReaction<W>(app: App<W>, a: Action): (r: App<W>)
    ensures r.world == app.world && r.queue == app.queue
    ensures r.chord == (if a == Action.Tick then [] else app.chord)
    ensures r.shouldQuit == (app.shouldQuit || a == Action.Quit)
    ensures r.shouldSuspend == (if a == Suspend then true else if a == Resume then false else app.shouldSuspend)
  {
    match a
    case Tick => app.(chord := [])
    case Quit => app.(shouldQuit := true)
    case Suspend => app.(shouldSuspend := true)
    case Resume => app.(shouldSuspend := false)
    case _ => app
  }

  /** What handling one action left behind: the loop state, the terminal
      operations and the actions it queued. */
  datatype StepResult<W> = StepResult(app: App<W>, ops: seq<TermOp>, produced: seq<Action>)

  /** The terminal operations an action asks for. */
  function OpsOf(a: Action): (ops: seq<TermOp>)
    ensures a == ClearScreen ==> ops == [Clear]
    ensures a.Resize? ==> ops == [ResizeTo(a.w, a.h), Draw]
    ensures a == Action.Render ==> ops == [Draw]
    ensures a != ClearScreen && !a.Resize? && a != Action.Render ==> ops == []
  {
    match a
    case ClearScreen => [Clear]
    case Resize(w, h) => [ResizeTo(w, h), Draw]
    case Render => [Draw]
    case _ => []
  }

  /** Handles one dequeued action (the body of the drain loop): the loop's
      own reaction, the terminal operations (a render pass for Render and
      Resize, whose errors are queued first), then the action offered to
      every component in list order, their follow-ups queued behind. */
  function Step<W>(s: Setup<W>, app: App<W>, a: Action): (r: Outcome<StepResult<W>>)
    ensures r.Done? ==>
      var own := OwnReaction(app, a);
      && r.value.app == own.(world := r.value.app.world, queue := app.queue + r.value.produced)
      && r.value.ops == OpsOf(a)
    ensures !(a.Resize? || a == Action.Render) ==>
      match Broadcast(s.components, app.world, OnAction(a))
      case Done((w, follow)) => r.Done? && r.value.app.world == w && r.value.produced == follow
      case Panic(why) => r == Panic(why)
      case Fail(e) => r == Fail(e)
    ensures a.Resize? || a == Action.Render ==>
      match DrawAll(s.components, app.world)
      case Done((w1, errs)) =>
        (match Broadcast(s.components, w1, OnAction(a))
         case Done((w2, follow)) => r.Done? && r.value.app.world == w2 && r.value.produced == errs + follow
         case Panic(why) => r == Panic(why)
         case Fail(e) => r == Fail(e))
      case Panic(why) => r == Panic(why)
      case Fail(e) => r == Fail(e)
  {
    var own := OwnReaction(app, a);
    var drawn := if a.Resize? || a == Action.Render then DrawAll(s.components, own.world) else Done((own.world, []));
    match drawn
    case Done((w1, errs)) =>
      (match Broadcast(s.components, w1, OnAction(a))
       case Done((w2, follow)) =>
         Done(StepResult(own.(world := w2, queue := own.queue + (errs + follow)), OpsOf(a), errs + follow))
       case Panic(why) => Panic(why)
       case Fail(e) => Fail(e))
    case Panic(why) => Panic(why)
    case Fail(e) => Fail(e)
  }

  /** The suspend flag after a run of actions, starting from `b`: the last
      Suspend or Resume decides. */
  function SuspendAfter(b: bool, handled: seq<Action>): bool
    decreases |handled|
  {
    if handled == [] then b
    else SuspendAfter(if handled[0] == Suspend then true else if handled[0] == Resume then false else b, handled[1..])
  }

  /** The result of a drain: the loop state, the actions handled in order,
      the actions they queued in order, the terminal operations, and whether
      the queue was emptied (as opposed to the fuel running out). */
  datatype Drained<W> = Drained(app: App<W>, handled: seq<Action>, produced: seq<Action>, ops: seq<TermOp>, complete: bool)

  /** `handle_actions`: handles queued actions front first until the queue
      is empty. Follow-ups join the back of the same queue and are handled
      in the same drain, so a chain of follow-ups need not end: `fuel`
      bounds the number of actions handled. The first error or panic
      stops the drain.

      Nothing is lost or reordered: what was queued plus what was produced
      is what was handled followed by what is still queued. */
  function Drain<W>(s: Setup<W>, app: App<W>, fuel: nat): (r: Outcome<Drained<W>>)
    ensures r.Done? ==> app.queue + r.value.produced == r.value.handled + r.value.app.queue
    ensures r.Done? && r.value.complete ==> r.value.app.queue == []
    ensures r.Done? && !r.value.complete ==> |r.value.handled| == fuel
    ensures r.Done? ==> r.value.app.shouldQuit == (app.shouldQuit || Action.Quit in r.value.handled)
    ensures r.Done? ==> r.value.app.shouldSuspend == SuspendAfter(app.shouldSuspend, r.value.handled)
    ensures r.Done? && Action.Tick in r.value.handled ==> r.value.app.chord == []
    ensures r.Done? && Action.Tick !in r.value.handled ==> r.value.app.chord == app.chord
    decreases fuel
  {
    if app.queue == [] then Done(Drained(app, [], [], [], true))
    else if fuel == 0 then Done(Drained(app, [], [], [], false))
    else
      var a := app.queue[0];
      match Step(s, app.(queue := app.queue[1..]), a)
      case Done(st) =>
        (match Drain(s, st.app, fuel - 1)
         case Done(d) =>
           DrainStep(app, st, d);
           Done(Drained(d.app, [a] + d.handled, st.produced + d.produced, st.ops + d.ops, d.complete))
         case Panic(why) => Panic(why)
         case Fail(e) => Fail(e))
      case Panic(why) => Panic(why)
      case Fail(e) => Fail(e)
  }

  /** One round of the drain: handling the front action and then draining
      what is left keeps the drain's accounting. */
  lemma DrainStep<W>(app: App<W>, st: StepResult<W>, d: Drained<W>)
    requires app.queue != []
    requires var a := app.queue[0];
      && st.app.queue == app.queue[1..] + st.produced
      && st.app.shouldQuit == (app.shouldQuit || a == Action.Quit)
      && st.app.shouldSuspend == (if a == Suspend then true else if a == Resume then false else app.shouldSuspend)
      && st.app.chord == (if a == Action.Tick then [] else app.chord)
    requires st.app.queue + d.produced == d.handled + d.app.queue
    requires d.app.shouldQuit == (st.app.shouldQuit || Action.Quit in d.handled)
    requires d.app.shouldSuspend == SuspendAfter(st.app.shouldSuspend, d.handled)
    requires Action.Tick in d.handled ==> d.app.chord == []
    requires Action.Tick !in d.handled ==> d.app.chord == st.app.chord
    ensures var h := [app.queue[0]] + d.handled;
      && app.queue + (st.produced + d.produced) == h + d.app.queue
      && d.app.shouldQuit == (app.shouldQuit || Action.Quit in h)
      && d.app.shouldSuspend == SuspendAfter(app.shouldSuspend, h)
      && (Action.Tick in h ==> d.app.chord == [])
      && (Action.Tick !in h ==> d.app.chord == app.chord)
  {
    var a := app.queue[0];
    var h := [a] + d.handled;
    assert h[0] == a && h[1..] == d.handled;
    assert app.queue == [a] + app.queue[1..];
    calc {
      app.queue + (st.produced + d.produced);
      [a] + (app.queue[1..] + st.produced) + d.produced;
      [a] + (st.app.queue + d.produced);
      [a] + (d.handled + d.app.queue);
      h + d.app.queue;
    }
  }

  /** The reference the drain is measured against: each action of a run
      handled by `Step` in order, on an empty queue, with the follow-ups
      collected in order. The first error or panic stops the run. */
  function StepAll<W>(s: Setup<W>, app: App<W>, acts: seq<Action>): Outcome<(App<W>, seq<Action>)>
    decreases |acts|
  {
    if acts == [] then Done((app, []))
    else
      match Step(s, app, acts[0])
      case Done(st) =>
        (match StepAll(s, st.app.(queue := []), acts[1..])
         case Done((app', rest)) => Done((app', st.produced + rest))
         case Panic(why) => Panic(why)
         case Fail(e) => Fail(e))
      case Panic(why) => Panic(why)
      case Fail(e) => Fail(e)
  }

  /** What a step does to the loop and what it produces do not depend on
      what else is queued: the queue only receives the follow-ups. */
  lemma StepIgnoresQueue<W>(s: Setup<W>, app: App<W>, q: seq<Action>, a: Action)
    ensures var r1 := Step(s, app, a);
      var r2 := Step(s, app.(queue := q), a);
      && r1.Done? == r2.Done?
      && (r1.Done? ==>
            && r1.value.produced == r2.value.produced
            && r1.value.app.(queue := []) == r2.value.app.(queue := []))
      && (!r1.Done? ==> r1 == r2)
  {
  }

  /** The drain is the step fold: the actions it handled, each offered by
      `Step` to the loop and then to every component in list order, lead to
      the loop state it ends in, and the follow-ups it reports are theirs. */
  lemma {:induction false} DrainIsStepFold<W>(s: Setup<W>, app: App<W>, fuel: nat)
    ensures var r := Drain(s, app, fuel);
      r.Done? ==> StepAll(s, app.(queue := []), r.value.handled) == Done((r.value.app.(queue := []), r.value.produced))
    decreases fuel
  {
    var r := Drain(s, app, fuel);
    if r.Done? && app.queue != [] && fuel > 0 {
      var a := app.queue[0];
      var rest := app.(queue := app.queue[1..]);
      var st := Step(s, rest, a).value;
      var d := Drain(s, st.app, fuel - 1).value;
      DrainIsStepFold(s, st.app, fuel - 1);
      StepIgnoresQueue(s, rest, [], a);
      assert rest.(queue := []) == app.(queue := []);
      assert r.value.handled == [a] + d.handled;
      assert r.value.handled[1..] == d.handled;
    }
  }

  /** The check after each drain in `run`: a suspended loop queues Resume
      then ClearScreen and goes on (after suspending and re-entering the
      terminal); otherwise the loop stops, stopping the terminal, exactly
      when the quit flag is up. The second component tells whether the loop
      ends. */
  function AfterDrain<W>(app: App<W>): (r: (App<W>, bool, seq<TermOp>))
    ensures app.shouldSuspend ==>
      r == (app.(queue := app.queue + [Action.Resume, ClearScreen]), false, [SuspendTui, EnterTui])
    ensures !app.shouldSuspend ==> r.0 == app && (r.1 <==> app.shouldQuit)
    ensures !app.shouldSuspend ==> r.2 == (if app.shouldQuit then [StopTui] else [])
  {
    if app.shouldSuspend then (app.(queue := app.queue + [Action.Resume, ClearScreen]), false, [SuspendTui, EnterTui])
    else if app.shouldQuit then (app, true, [StopTui])
    else (app, false, [])
  }

  /** A run of actions that contains a Resume and no Suspend leaves the
      suspend flag down, whatever it was. */
  lemma {:induction false} ResumeWithoutSuspend(b: bool, handled: seq<Action>)
    requires Action.Resume in handled && Suspend !in handled
    ensures !SuspendAfter(b, handled)
    decreases |handled|
  {
    if handled[0] == Resume {
      NoSuspendStaysDown(handled[1..]);
    } else {
      assert Action.Resume in handled[1..];
      ResumeWithoutSuspend(b, handled[1..]);
    }
  }

  /** With the flag down, no run of actions without a Suspend raises it. */
  lemma {:induction false} NoSuspendStaysDown(handled: seq<Action>)
    requires Suspend !in handled
    ensures !SuspendAfter(false, handled)
    decreases |handled|
  {
    if handled != [] {
      assert handled[0] != Suspend;
      assert Suspend !in handled[1..];
      NoSuspendStaysDown(handled[1..]);
    }
  }

  /** A suspended loop resumes: after the check queues Resume and
      ClearScreen on an empty queue, a drain that gets that far handles
      Resume first and, unless a component asks to suspend again, ends
      with the suspend flag down. */
  lemma SuspendIsUndone<W>(s: Setup<W>, app: App<W>, fuel: nat)
    requires app.shouldSuspend && app.queue == []
    ensures var o := Drain(s, AfterDrain(app).0, fuel);
      o.Done? ==>
        && (fuel > 0 ==> o.value.handled[0] == Action.Resume)
        && (fuel > 0 && Suspend !in o.value.handled ==> !o.value.app.shouldSuspend)
  {
    var o := Drain(s, AfterDrain(app).0, fuel);
    if o.Done? && fuel > 0 {
      var d := o.value;
      assert d.handled[0] == ([Action.Resume, ClearScreen] + d.produced)[0];
      if Suspend !in d.handled {
        ResumeWithoutSuspend(true, d.handled);
      }
    }
  }

  /** A two-key chord is recognised when both keys arrive within one tick:
      the first key alone sends nothing and is buffered, the second sends
      the chord's action. The matched chord stays in the buffer. */
  lemma ChordWithinTick(keymap: Keymap, mode: Mode, k1: KeyEvent, k2: KeyEvent)
    requires mode in keymap
    requires [k1] !in keymap[mode] && [k2] !in keymap[mode] && [k1, k2] in keymap[mode]
    ensures var r1 := RouteKey(keymap, mode, [], k1);
      var r2 := RouteKey(keymap, mode, r1.chord, k2);
      && r1 == Routing([k1], None)
      && r2 == Routing([k1, k2], Some(keymap[mode][[k1, k2]]))
  {
    assert [] + [k1] == [k1];
    assert [k1] + [k2] == [k1, k2];
  }

  /** A Tick between the two keys of a chord breaks it: the Tick empties
      the buffer, so the second key is looked up alone and sends nothing. */
  lemma TickBreaksChord<W>(s: Setup<W>, app: App<W>, k1: KeyEvent, k2: KeyEvent)
    requires s.modeOf(app.world) in s.keymap
    requires var m := s.keymap[s.modeOf(app.world)]; [k1] !in m && [k2] !in m
    requires app.chord == [] && Step(s, Translate(s, app, Event.Key(k1)), Action.Tick).Done?
    requires s.modeOf(Step(s, Translate(s, app, Event.Key(k1)), Action.Tick).value.app.world) == s.modeOf(app.world)
    ensures var a1 := Translate(s, app, Event.Key(k1));
      var a2 := Step(s, a1, Action.Tick).value.app;
      var a3 := Translate(s, a2, Event.Key(k2));
      && a1.chord == [k1]
      && a2.chord == []
      && a3.chord == [k2] && a3.queue == a2.queue
  {
    assert [] + [k1] == [k1];
    assert [] + [k2] == [k2];
  }
}

=== FILE: area_util.dfy ===
/** Layout arithmetic: placing a bordered paragraph in the vertical middle of
    a region. */
module AreaUtil {
  import opened Base

  /** The text width a bordered block leaves for its content. */
  function TextWidth(area: Rect): nat {
    SaturatingSub(area.width, 2)
  }

  /** `cal_center_area`. `estimate` stands for `estimate_line_count` applied
      to the paragraph's text: it receives the width left inside the border
      and returns the number of wrapped lines. The `u16` additions panic on
      overflow. */
  function CalCenterArea(area: Rect, estimate: nat -> nat): (r: Outcome<Rect>)
    ensures !r.Fail?
    ensures var lines := AsU16(estimate(TextWidth(area)));
      r.Done? <==> IsU16(lines + 2) && IsU16(area.y + SaturatingSub(area.height, lines + 2) / 2)
    ensures r.Done? ==>
      var lines := AsU16(estimate(TextWidth(area)));
      && r.value.x == area.x && r.value.width == area.width
      && r.value.height <= area.height
      && r.value.height <= lines + 2
      && (r.value.height == area.height || r.value.height == lines + 2)
      && area.y <= r.value.y
      && r.value.y + r.value.height <= area.y + area.height
  {
    var lines := AsU16(estimate(TextWidth(area)));
    var height := lines + 2;
    if !IsU16(height) then Panic("attempt to add with overflow")
    else
      var y := area.y + SaturatingSub(area.height, height) / 2;
      if !IsU16(y) then Panic("attempt to add with overflow")
      else Done(Rect(area.x, y, area.width, Min(height, area.height)))
  }

  /** A region that ends inside the `u16` range never makes the arithmetic
      overflow, as long as the line estimate leaves room for the border. */
  lemma CalCenterAreaNoOverflow(area: Rect, estimate: nat -> nat)
    requires area.Fits()
    requires estimate(TextWidth(area)) + 2 <= U16_MAX
    ensures CalCenterArea(area, estimate).Done?
    ensures CalCenterArea(area, estimate).value.height ==
      Min(estimate(TextWidth(area)) + 2, area.height)
  {
  }

  /** The paragraph is centred: the space left above it and the space left
      below it differ by at most one row. */
  lemma CalCenterAreaCentred(area: Rect, estimate: nat -> nat)
    requires CalCenterArea(area, estimate).Done?
    ensures var c := CalCenterArea(area, estimate).value;
      var above, below := c.y - area.y, (area.y + area.height) - (c.y + c.height);
      above <= below <= above + 1
  {
  }
}

=== FILE: base.dfy ===
/** Rust vocabulary shared by every screen of the chat client: optional
    values, fallible calls, the ways a Rust call can end abnormally, and the
    fixed-width integers and terminal rectangles of the UI library. */
module Base {

  /** Rust's `Option`. */
  datatype Option<+T> = None | Some(value: T) {
    /** `unwrap_or` */
    function GetOr(default: T): T {
      match this
      case Some(v) => v
      case None => default
    }
  }

  /** The value a fallible collaborator (a network call, a decoder) hands
      back: a typed success or a human-readable error. */
  datatype Result<+T> = Ok(value: T) | Err(error: string)

  /** How a Rust call ends: normally, by a panic (an `unwrap` of `None`, an
      arithmetic overflow in a debug build), or by an error that `?` hands to
      the caller. */
  datatype Outcome<+T> = Done(value: T) | Panic(reason: string) | Fail(error: string)

  const U16_MAX: nat := 0xFFFF
  const USIZE_MAX: nat := 0xFFFF_FFFF_FFFF_FFFF

  predicate IsU16(n: nat) { n <= U16_MAX }

  /** `n as u16`: keeps the low sixteen bits. */
  function AsU16(n: nat): (r: nat)
    ensures IsU16(r)
    ensures IsU16(n) ==> r == n
  {
    n % (U16_MAX + 1)
  }

  /** `a.saturating_sub(b)` on unsigned integers. */
  function SaturatingSub(a: nat, b: nat): nat {
    if a >= b then a - b else 0
  }

  /** `a.saturating_add(b)` on `usize`. */
  function SaturatingAddUsize(a: nat, b: nat): nat {
    if a + b > USIZE_MAX then USIZE_MAX else a + b
  }

  function Min(a: nat, b: nat): nat {
    if a <= b then a else b
  }

  function Max(a: nat, b: nat): nat {
    if a >= b then a else b
  }

  /** A cell position on the terminal (`ratatui::layout::Position`). */
  datatype Position = Position(x: nat, y: nat)

  /** A terminal region (`ratatui::layout::Rect`); every field is a `u16`. */
  datatype Rect = Rect(x: nat, y: nat, width: nat, height: nat) {
    predicate Valid() {
      IsU16(x) && IsU16(y) && IsU16(width) && IsU16(height)
    }

    /** The bound `Rect::new` keeps: the region ends inside the `u16` range. */
    predicate Fits() {
      Valid() && IsU16(x + width) && IsU16(y + height)
    }
  }
}

=== FILE: chat.dfy ===
/** The chat view: the transcript of the open conversation, its scroll
    offset, the message editor, and the two sub-states "reading the history"
    and "typing a message". */
module ChatView {
  import opened Base
  import opened Actions
  import opened TextInput
  import opened Conversation
  import Ev = EventStream

  /** `History` reads the transcript, `Chat` types a message. */
  datatype ChatState = History | Chat

  /** A transcript entry as the server sends it; `time` is an abstract
      timestamp and `fromName` the sender's display name. */
  datatype HistoryMsg = HistoryMsg(mid: int, msg: string, time: int, fromUid: int, fromName: string)

  /** `ChatHistory`: an entry of a one-to-one or of a group transcript. */
  datatype ChatHistory = UserEntry(entry: HistoryMsg) | GroupEntry(entry: HistoryMsg)

  /** The scroll offset and the position last handed to the scrollbar. */
  datatype ScrollBar = ScrollBar(statePosition: nat, verticalScroll: nat)

  datatype ChatScreen = ChatScreen(
    history: seq<ChatHistory>,
    scrollBar: ScrollBar,
    input: UserInput,
    state: ChatState)

  /** The editor is in editing style exactly while a message is typed. */
  predicate EditingMatches(c: ChatScreen) {
    c.input.isEditing <==> c.state == ChatState.Chat
  }

  /** `Chat::new` (the listener it starts is not part of this model). */
  function NewChat(): (c: ChatScreen)
    ensures c.history == [] && c.state == History
    ensures c.scrollBar == ScrollBar(0, 0)
    ensures c.input == New(ChatMsg(None))
    ensures EditingMatches(c)
  {
    ChatScreen([], ScrollBar(0, 0), New(ChatMsg(None)), History)
  }

  /** `next_state`: switches between reading and typing and puts the editor
      in the matching style; nothing else changes. */
  function NextState(c: ChatScreen): (r: ChatScreen)
    ensures r.state != c.state
    ensures EditingMatches(r)
    ensures r == c.(state := r.state, input := c.input.(isEditing := r.input.isEditing))
  {
    match c.state
    case History => c.(state := ChatState.Chat, input := c.input.(isEditing := true))
    case Chat => c.(state := History, input := c.input.(isEditing := false))
  }

  /** Switching twice comes back to the same screen. */
  lemma NextStateTwice(c: ChatScreen)
    requires EditingMatches(c)
    ensures NextState(NextState(c)) == c
  {
  }

  /** `ScrollBar::reset`. */
  function ResetScroll(s: ScrollBar): (r: ScrollBar)
    ensures r.verticalScroll == 0 && r.statePosition == 0
  {
    ScrollBar(0, 0)
  }

  /** Down in the history: one line further, saturating at `usize::MAX`,
      with no upper clamp against the transcript length. */
  function ScrollDown(s: ScrollBar): (r: ScrollBar)
    ensures s.verticalScroll < USIZE_MAX ==> r.verticalScroll == s.verticalScroll + 1
    ensures s.verticalScroll >= USIZE_MAX ==> r.verticalScroll == USIZE_MAX
    ensures r.statePosition == r.verticalScroll
  {
    var v := SaturatingAddUsize(s.verticalScroll, 1);
    ScrollBar(v, v)
  }

  /** Up in the history: one line back, stopping at the top. */
  function ScrollUp(s: ScrollBar): (r: ScrollBar)
    ensures s.verticalScroll > 0 ==> r.verticalScroll == s.verticalScroll - 1
    ensures s.verticalScroll == 0 ==> r.verticalScroll == 0
    ensures r.statePosition == r.verticalScroll
  {
    var v := SaturatingSub(s.verticalScroll, 1);
    ScrollBar(v, v)
  }

  /** Up undoes Down below the saturation point, and Down undoes Up away from
      the top. */
  lemma ScrollInverse(s: ScrollBar)
    requires s.statePosition == s.verticalScroll
    ensures s.verticalScroll < USIZE_MAX ==> ScrollUp(ScrollDown(s)) == s
    ensures 0 < s.verticalScroll <= USIZE_MAX ==> ScrollDown(ScrollUp(s)) == s
  {
  }

  /** A message on its way to the server. */
  datatype Outgoing = Outgoing(to: Ev.MessageTarget, msg: string)

  /** `send_msg`: `data` is the text the editor reports as committed. With
      text to send, the open conversation is unwrapped (a panic when none is
      open) and the message goes to its friend or group; a failed send is
      only logged, so its result does not matter here. */
  function SendMsg(open: Option<ChatVo>, data: Option<string>): (r: Outcome<Option<Outgoing>>)
    ensures !r.Fail?
    ensures r.Panic? <==> data.Some? && open.None?
    ensures r.Done? ==> (r.value.Some? <==> data.Some?)
    ensures r.Done? && r.value.Some? ==>
      r.value.value.msg == data.value && r.value.value.to == Recipient(open.value)
  {
    match data
    case None => Done(None)
    case Some(msg) =>
      match open
      case None => Panic("called `Option::unwrap()` on a `None` value")
      case Some(vo) => Done(Some(Outgoing(Recipient(vo), msg)))
  }

  /** What a key press leaves behind: the screen, the mode, the message sent
      if any, and the action returned to the loop. */
  datatype KeyOutcome = KeyOutcome(chat: ChatScreen, mode: Mode, sent: Option<Outgoing>, emitted: Option<Action>)

  /** `handle_key_event`. `open` is the conversation in the shared slot and
      `data` the text the editor reports as committed after the submit. */
  function HandleKeyEvent(c: ChatScreen, mode: Mode, open: Option<ChatVo>, key: KeyEvent, data: Option<string>)
    : (r: Outcome<KeyOutcome>)
    ensures !r.Fail?
    ensures r.Done? ==> r.value.emitted.None?
    ensures mode != Mode.Chat ==> r == Done(KeyOutcome(c, mode, None, None))
    ensures r.Panic? ==> c.state == ChatState.Chat && key.code == Enter
    ensures mode == Mode.Chat && c.state == History ==>
      r.Done? && r.value.sent.None? &&
      match key.code
      case Esc => r.value.chat == c && r.value.mode == RecentChat
      case Down => r.value.chat == c.(scrollBar := ScrollDown(c.scrollBar)) && r.value.mode == mode
      case Up => r.value.chat == c.(scrollBar := ScrollUp(c.scrollBar)) && r.value.mode == mode
      case Char(ch) => r.value.chat == (if ch == 'e' then NextState(c) else c) && r.value.mode == mode
      case _ => r.value.chat == c && r.value.mode == mode
    ensures mode == Mode.Chat && c.state == ChatState.Chat && key.code == Enter ==>
      && (r.Panic? <==> c.input.inputData.None? || (data.Some? && open.None?))
      && (r.Done? ==>
            && r.value.mode == mode
            && r.value.chat == c.(input := r.value.chat.input)
            && r.value.chat.input == Reset(SubmitMessage(c.input).value)
            && (r.value.sent.Some? <==> data.Some?)
            && (r.value.sent.Some? ==> r.value.sent == Some(Outgoing(Recipient(open.value), data.value))))
    ensures mode == Mode.Chat && c.state == ChatState.Chat && key.code != Enter ==>
      && r.Done? && r.value.mode == mode && r.value.sent.None?
      && (key.code == Esc ==> r.value.chat == NextState(c))
      && (key.code != Esc ==>
            r.value.chat == c.(input := EditByKey(c.input, key.code)))
  {
    if mode != Mode.Chat then Done(KeyOutcome(c, mode, None, None))
    else
      match c.state
      case History =>
        (match key.code
         case Esc => Done(KeyOutcome(c, RecentChat, None, None))
         case Down => Done(KeyOutcome(c.(scrollBar := ScrollDown(c.scrollBar)), mode, None, None))
         case Up => Done(KeyOutcome(c.(scrollBar := ScrollUp(c.scrollBar)), mode, None, None))
         case Char('e') => Done(KeyOutcome(NextState(c), mode, None, None))
         case _ => Done(KeyOutcome(c, mode, None, None)))
      case Chat =>
        (match key.code
         case Enter =>
           (match SubmitMessage(c.input)
            case Done(submitted) =>
              (match SendMsg(open, data)
               case Done(sent) => Done(KeyOutcome(c.(input := Reset(submitted)), mode, sent, None))
               case Panic(why) => Panic(why)
               case Fail(e) => Fail(e))
            case Panic(why) => Panic(why)
            case Fail(e) => Fail(e))
         case Esc => Done(KeyOutcome(NextState(c), mode, None, None))
         case _ => Done(KeyOutcome(c.(input := EditByKey(c.input, key.code)), mode, None, None)))
  }

  /** The only way a key press leaves the chat view is Esc while reading the
      history, and it always leads back to the recent-chat list. */
  lemma KeyEventModeChange(c: ChatScreen, mode: Mode, open: Option<ChatVo>, key: KeyEvent, data: Option<string>)
    requires HandleKeyEvent(c, mode, open, key, data).Done?
    ensures var o := HandleKeyEvent(c, mode, open, key, data).value;
      o.mode != mode <==> mode == Mode.Chat && c.state == History && key.code == Esc
    ensures var o := HandleKeyEvent(c, mode, open, key, data).value;
      o.mode != mode ==> o.mode == RecentChat
  {
  }

  /** Key presses keep the editor's style in step with the sub-state and
      never touch the transcript. */
  lemma KeyEventKeepsEditing(c: ChatScreen, mode: Mode, open: Option<ChatVo>, key: KeyEvent, data: Option<string>)
    requires EditingMatches(c)
    requires HandleKeyEvent(c, mode, open, key, data).Done?
    ensures EditingMatches(HandleKeyEvent(c, mode, open, key, data).value.chat)
    ensures HandleKeyEvent(c, mode, open, key, data).value.chat.history == c.history
  {
  }

  // ---------------------------------------------------------------------
  // Fetching the history of the open conversation

  /** The read mark set after a fetch: the conversation and the id of the
      newest fetched message. */
  datatype ReadIndex = ReadIndex(target: Ev.MessageTarget, mid: int)

  /** Fetched entries tagged with the kind of the conversation, in order. */
  function Tagged(vo: ChatVo, hs: seq<HistoryMsg>): (r: seq<ChatHistory>)
    ensures |r| == |hs|
    ensures forall i :: 0 <= i < |r| ==> r[i].entry == hs[i] && (r[i].UserEntry? <==> vo.UserVo?)
  {
    seq(|hs|, i requires 0 <= i < |hs| => if vo.UserVo? then UserEntry(hs[i]) else GroupEntry(hs[i]))
  }

  /** `fetch_history`. `fetched` is what the history request returns and
      `readIndexJoin` how storing the read mark ended: a failure there panics
      inside the request's worker, and the bridge reports the worker's join
      error, whose display text is the `Err` payload, prefixed with
      "failed to send request:". */
  function FetchHistory(c: ChatScreen, vo: ChatVo, fetched: Result<seq<HistoryMsg>>, readIndexJoin: Result<()>)
    : (r: Outcome<(ChatScreen, ReadIndex)>)
    ensures r.Fail? <==> fetched.Err? || (fetched.Ok? && fetched.value != [] && readIndexJoin.Err?)
    ensures fetched.Err? ==> r == Fail("Failed to fetch chat history:" + fetched.error)
    ensures fetched.Ok? && fetched.value != [] && readIndexJoin.Err? ==>
      r == Fail("failed to send request:" + readIndexJoin.error)
    ensures r.Panic? <==> fetched == Ok([])
    ensures r.Done? ==>
      && r.value.0 == c.(history := r.value.0.history)
      && r.value.0.history == Tagged(vo, fetched.value)
      && r.value.1 == ReadIndex(Recipient(vo), fetched.value[|fetched.value| - 1].mid)
  {
    match fetched
    case Err(e) => Fail("Failed to fetch chat history:" + e)
    case Ok(hs) =>
      if hs == [] then Panic("called `Option::unwrap()` on a `None` value")
      else if readIndexJoin.Err? then Fail("failed to send request:" + readIndexJoin.error)
      else Done((c.(history := [] + Tagged(vo, hs)), ReadIndex(Recipient(vo), hs[|hs| - 1].mid)))
  }

  /** The guard of `update`: the list or the chat view is showing, a
      conversation is open, its history is asked for, and the user is
      reading rather than typing. */
  predicate NeedsFetch(c: ChatScreen, mode: Mode, h: ChatVoHolder) {
    (mode == RecentChat || mode == Mode.Chat) && h.chatVo.Some? && h.needFetch && c.state == History
  }

  datatype UpdateOutcome = UpdateOutcome(chat: ChatScreen, holder: ChatVoHolder, readIndex: Option<ReadIndex>, emitted: Option<Action>)

  /** `update`: whatever the action, fetches the open conversation's history
      when the guard holds, after clearing the flag and the scroll offset. */
  function Update(c: ChatScreen, mode: Mode, h: ChatVoHolder, action: Action,
                  fetched: Result<seq<HistoryMsg>>, readIndexJoin: Result<()>): (r: Outcome<UpdateOutcome>)
    ensures !NeedsFetch(c, mode, h) ==> r == Done(UpdateOutcome(c, h, None, None))
    ensures NeedsFetch(c, mode, h) ==>
      && (r.Panic? <==> fetched == Ok([]))
      && (r.Fail? <==> fetched.Err? || (fetched.Ok? && fetched.value != [] && readIndexJoin.Err?))
      && (r.Fail? ==> r.error == FetchHistory(c.(scrollBar := ScrollBar(0, 0)), h.chatVo.value, fetched, readIndexJoin).error)
      && (r.Done? ==>
            && r.value.holder == h.(needFetch := false)
            && r.value.chat == c.(scrollBar := ScrollBar(0, 0), history := r.value.chat.history)
            && r.value.chat.history == Tagged(h.chatVo.value, fetched.value)
            && r.value.readIndex == Some(ReadIndex(Recipient(h.chatVo.value), fetched.value[|fetched.value| - 1].mid))
            && r.value.emitted.None?)
  {
    if !NeedsFetch(c, mode, h) then Done(UpdateOutcome(c, h, None, None))
    else
      var h' := h.(needFetch := false);
      var c' := c.(scrollBar := ResetScroll(c.scrollBar));
      match FetchHistory(c', h.chatVo.value, fetched, readIndexJoin)
      case Done((c'', ri)) => Done(UpdateOutcome(c'', h', Some(ri), None))
      case Panic(why) => Panic(why)
      case Fail(e) => Fail(e)
  }

  /** Opening a conversation from the list makes the next update fetch its
      history while the user reads, and the update after that fetch nothing:
      every publication is fetched exactly once. */
  lemma FetchExactlyOnce(c: ChatScreen, mode: Mode, h: ChatVoHolder, vo: ChatVo, a: Action, b: Action,
                         fetched: Result<seq<HistoryMsg>>, ok: Result<()>, fetched': Result<seq<HistoryMsg>>, ok': Result<()>)
    requires mode == RecentChat || mode == Mode.Chat
    requires c.state == History
    requires Update(c, mode, SetChatVo(h, vo), a, fetched, ok).Done?
    ensures var o := Update(c, mode, SetChatVo(h, vo), a, fetched, ok).value;
      && o.readIndex.Some? && o.readIndex.value.target == Recipient(vo)
      && Update(o.chat, mode, o.holder, b, fetched', ok') == Done(UpdateOutcome(o.chat, o.holder, None, None))
  {
  }

  // ---------------------------------------------------------------------
  // Incoming messages

  /** Whether the listener appends an incoming message to the open
      transcript: a group message when that group is open; a one-to-one
      message when any one-to-one conversation is open and the logged-in user
      is its recipient or its sender. The friend of the open conversation is
      not compared. */
  predicate Accepts(open: Option<ChatVo>, me: Actions.User, m: Ev.ChatMessage) {
    match m.payload.target
    case TargetGroup(g) => open.Some? && open.value.GroupVo? && open.value.gid == g
    case TargetUser(u) => open.Some? && open.value.UserVo? && (me.id == u || me.id == m.payload.fromUid)
  }

  /** The entry a message becomes, with the sender's display name. */
  function EntryOf(m: Ev.ChatMessage, fromName: string): HistoryMsg {
    HistoryMsg(m.mid, Ev.GetContent(m.payload.detail), m.payload.createdAt, m.payload.fromUid, fromName)
  }

  /** Whether the listener names the sender after the logged-in user
      without a lookup: the user sent the message, and, for a one-to-one
      message, is not also its recipient (that case is checked first and
      goes through the lookup). */
  predicate OwnMessage(me: Actions.User, m: Ev.ChatMessage) {
    match m.payload.target
    case TargetUser(u) => me.id != u && me.id == m.payload.fromUid
    case TargetGroup(_) => me.id == m.payload.fromUid
  }

  /** The sender's name as the listener finds it: the logged-in user's own
      name for their own messages, otherwise the user-detail lookup, which
      panics when it fails. */
  function SenderName(me: Actions.User, m: Ev.ChatMessage, lookup: int -> Result<string>): (r: Outcome<string>)
    ensures !r.Fail?
    ensures OwnMessage(me, m) ==> r == Done(me.name)
    ensures !OwnMessage(me, m) ==>
      && (r.Panic? <==> lookup(m.payload.fromUid).Err?)
      && (r.Done? ==> r.value == lookup(m.payload.fromUid).value)
  {
    if OwnMessage(me, m) then Done(me.name)
    else match lookup(m.payload.fromUid)
      case Ok(name) => Done(name)
      case Err(_) => Panic("called `Result::unwrap()` on an `Err` value")
  }

  /** The decision inside `refresh` for one received message. `me` is the
      logged-in user (unwrapped, so a panic when nobody is logged in) and
      `lookup` the user-detail request. */
  function Receive(c: ChatScreen, open: Option<ChatVo>, me: Option<Actions.User>, m: Ev.ChatMessage,
                   lookup: int -> Result<string>): (r: Outcome<ChatScreen>)
    ensures !r.Fail?
    ensures me.None? ==> (r.Panic? <==> Touches(open, m)) && (r.Done? ==> r.value == c)
    ensures me.Some? && !Accepts(open, me.value, m) ==> r == Done(c)
    ensures me.Some? && Accepts(open, me.value, m) ==>
      (r.Panic? <==> !OwnMessage(me.value, m) && lookup(m.payload.fromUid).Err?)
    ensures r.Done? && me.Some? && Accepts(open, me.value, m) ==>
      && r.value == c.(history := r.value.history)
      && |r.value.history| == |c.history| + 1
      && r.value.history[..|c.history|] == c.history
      && r.value.history[|c.history|].entry ==
           EntryOf(m, if OwnMessage(me.value, m) then me.value.name else lookup(m.payload.fromUid).value)
      && (r.value.history[|c.history|].GroupEntry? <==> m.payload.target.TargetGroup?)
  {
    if !Touches(open, m) then Done(c)
    else match me
      case None => Panic("called `Option::unwrap()` on a `None` value")
      case Some(u) =>
        if !Accepts(open, u, m) then Done(c)
        else match SenderName(u, m, lookup)
          case Done(name) =>
            var e := EntryOf(m, name);
            Done(c.(history := c.history + [if m.payload.target.TargetGroup? then GroupEntry(e) else UserEntry(e)]))
          case Panic(why) => Panic(why)
          case Fail(err) => Fail(err)
  }

  /** Whether the listener gets as far as reading the logged-in user: a
      one-to-one conversation is open for a one-to-one message, or the
      message's group is open for a group message. */
  predicate Touches(open: Option<ChatVo>, m: Ev.ChatMessage) {
    match m.payload.target
    case TargetGroup(g) => open.Some? && open.value.GroupVo? && open.value.gid == g
    case TargetUser(_) => open.Some? && open.value.UserVo?
  }

  /** A group message never lands in another conversation's transcript. */
  lemma OtherGroupIgnored(c: ChatScreen, open: Option<ChatVo>, me: Option<Actions.User>, m: Ev.ChatMessage,
                          lookup: int -> Result<string>)
    requires m.payload.target.TargetGroup?
    requires open.None? || open.value.UserVo? || open.value.gid != m.payload.target.gid
    ensures Receive(c, open, me, m, lookup) == Done(c)
  {
  }

  /** The listener over a run of messages, stopping at the first panic. */
  function ReceiveAll(c: ChatScreen, open: Option<ChatVo>, me: Option<Actions.User>, ms: seq<Ev.ChatMessage>,
                      lookup: int -> Result<string>): Outcome<ChatScreen>
    decreases |ms|
  {
    if ms == [] then Done(c)
    else match Receive(c, open, me, ms[0], lookup)
      case Done(c') => ReceiveAll(c', open, me, ms[1..], lookup)
      case Panic(why) => Panic(why)
      case Fail(e) => Fail(e)
  }

  /** The number of messages of a run the listener keeps. */
  function CountAccepted(open: Option<ChatVo>, me: Actions.User, ms: seq<Ev.ChatMessage>): nat
    decreases |ms|
  {
    if ms == [] then 0 else (if Accepts(open, me, ms[0]) then 1 else 0) + CountAccepted(open, me, ms[1..])
  }

  /** Over a run of messages the transcript only grows at its end, by one
      entry per accepted message, and nothing else of the screen changes. */
  lemma {:induction false} ReceiveAllAppends(c: ChatScreen, open: Option<ChatVo>, me: Actions.User,
                                             ms: seq<Ev.ChatMessage>, lookup: int -> Result<string>)
    requires ReceiveAll(c, open, Some(me), ms, lookup).Done?
    ensures var r := ReceiveAll(c, open, Some(me), ms, lookup).value;
      && r == c.(history := r.history)
      && |r.history| == |c.history| + CountAccepted(open, me, ms)
      && r.history[..|c.history|] == c.history
    decreases |ms|
  {
    if ms != [] {
      var c' := Receive(c, open, Some(me), ms[0], lookup).value;
      ReceiveAllAppends(c', open, me, ms[1..], lookup);
      var r := ReceiveAll(c', open, Some(me), ms[1..], lookup).value;
      assert r.history[..|c.history|] == r.history[..|c'.history|][..|c.history|];
    }
  }
}

=== FILE: contact.dfy ===
/** The contact screen: the friend list, fetched once, and a user search
    whose results replace the list while the search field is active. */
module ContactList {
  import opened Base
  import opened Actions
  import opened TextInput

  /** `Friends` browses the friend list, `Search` types a name to look up. */
  datatype ContactState = Friends | Search

  datatype Friend = Friend(id: int, name: string)

  /** A user as the search endpoint describes it (the fields the screen
      reads). */
  datatype UserDetail = UserDetail(id: int, name: string, isFriend: bool)

  /** A row of the search results. */
  datatype FriendSearchRes = FriendSearchRes(name: string, isFriend: bool)

  /** `selected` is the row the list selection reports; the list widget that
      keeps it is not part of this model, so each move hands in the row it
      lands on. */
  datatype ContactView = ContactView(
    needFetch: bool,
    friends: seq<Friend>,
    searchResult: seq<FriendSearchRes>,
    selected: Option<nat>,
    input: UserInput,
    state: ContactState)

  /** The search field is in editing style exactly while searching. */
  predicate EditingMatches(c: ContactView) {
    c.input.isEditing <==> c.state == ContactState.Search
  }

  /** `Contact::new`: the friend list is still to be fetched. */
  function NewContact(): (c: ContactView)
    ensures c.needFetch && c.friends == [] && c.searchResult == []
    ensures c.selected.None? && c.state == Friends
    ensures c.input == New(InputData.Search(None))
    ensures EditingMatches(c)
  {
    ContactView(true, [], [], None, New(InputData.Search(None)), Friends)
  }

  /** `next_state`: switches between browsing and searching and puts the
      search field in the matching style; nothing else changes. */
  function NextState(c: ContactView): (r: ContactView)
    ensures r.state != c.state
    ensures EditingMatches(r)
    ensures r == c.(state := r.state, input := c.input.(isEditing := r.input.isEditing))
  {
    match c.state
    case Friends => c.(state := ContactState.Search, input := c.input.(isEditing := true))
    case Search => c.(state := Friends, input := c.input.(isEditing := false))
  }

  /** `clean_search`: drops the results and resets the search field. */
  function CleanSearch(c: ContactView): (r: ContactView)
    ensures r.searchResult == [] && r.input == Reset(c.input)
    ensures r == c.(searchResult := [], input := r.input)
  {
    c.(searchResult := [], input := Reset(c.input))
  }

  /** The search rows for the users a search returned, in order. */
  function ResultsOf(users: seq<UserDetail>): (rs: seq<FriendSearchRes>)
    ensures |rs| == |users|
    ensures forall i :: 0 <= i < |users| ==> rs[i] == FriendSearchRes(users[i].name, users[i].isFriend)
  {
    seq(|users|, i requires 0 <= i < |users| => FriendSearchRes(users[i].name, users[i].isFriend))
  }

  /** `search`. `reply` is what the user search returns. A success replaces
      the results wholesale; a failure is only logged. */
  function SearchFor(c: ContactView, reply: Result<seq<UserDetail>>): (r: ContactView)
    ensures reply.Ok? ==> r == c.(searchResult := ResultsOf(reply.value))
    ensures reply.Err? ==> r == c
  {
    match reply
    case Ok(users) => c.(searchResult := ResultsOf(users))
    case Err(_) => c
  }

  /** A name shows up as a result exactly when the search returned a user of
      that name. */
  lemma SearchResultNames(c: ContactView, users: seq<UserDetail>, name: string)
    ensures (exists i :: 0 <= i < |SearchFor(c, Ok(users)).searchResult|
               && SearchFor(c, Ok(users)).searchResult[i].name == name)
        <==> (exists j :: 0 <= j < |users| && users[j].name == name)
  {
    var rs := SearchFor(c, Ok(users)).searchResult;
    if exists j :: 0 <= j < |users| && users[j].name == name {
      var j :| 0 <= j < |users| && users[j].name == name;
      assert rs[j].name == name;
    }
  }

  /** What a key press leaves behind: the screen, the name searched for if
      any, and the action returned to the loop. */
  datatype KeyOutcome = KeyOutcome(contact: ContactView, query: Option<string>, emitted: Option<Action>)

  /** `handle_key_event`. `moved` is the row the selection lands on after an
      arrow key, `data` the text the search field reports as committed after
      the submit (unwrapped) and `reply` what searching for it returns. */
  function HandleKeyEvent(c: ContactView, mode: Mode, key: KeyEvent, moved: Option<nat>, data: Option<string>,
                          reply: Result<seq<UserDetail>>): (r: Outcome<KeyOutcome>)
    ensures !r.Fail?
    ensures r.Done? ==> r.value.emitted.None?
    ensures mode != Mode.Contact ==> r == Done(KeyOutcome(c, None, None))
    ensures r.Panic? <==>
      && mode == Mode.Contact && c.state == ContactState.Search && key.code == Enter
      && (c.input.inputData.None? || data.None?)
    ensures mode == Mode.Contact && c.state == Friends ==>
      r == Done(KeyOutcome(
        if key.code == Char('e') then NextState(c)
        else if key.code == Up || key.code == Down then c.(selected := moved)
        else c,
        None, None))
    ensures mode == Mode.Contact && c.state == ContactState.Search && r.Done? ==>
      && (key.code == Enter ==>
            r.value == KeyOutcome(SearchFor(c.(input := SubmitMessage(c.input).value), reply), data, None))
      && (key.code == Esc ==> r.value == KeyOutcome(NextState(CleanSearch(c)), None, None))
      && (key.code == Up || key.code == Down ==> r.value == KeyOutcome(c.(selected := moved), None, None))
      && (key.code !in {Enter, Esc, Up, Down} ==>
            r.value == KeyOutcome(c.(input := EditByKey(c.input, key.code)), None, None))
  {
    if mode != Mode.Contact then Done(KeyOutcome(c, None, None))
    else
      match c.state
      case Friends =>
        (match key.code
         case Char('e') => Done(KeyOutcome(NextState(c), None, None))
         case Up => Done(KeyOutcome(c.(selected := moved), None, None))
         case Down => Done(KeyOutcome(c.(selected := moved), None, None))
         case _ => Done(KeyOutcome(c, None, None)))
      case Search =>
        (match key.code
         case Enter =>
           (match SubmitMessage(c.input)
            case Done(u) =>
              (match data
               case Some(name) => Done(KeyOutcome(SearchFor(c.(input := u), reply), Some(name), None))
               case None => Panic("called `Option::unwrap()` on a `None` value"))
            case Panic(why) => Panic(why)
            case Fail(e) => Fail(e))
         case Up => Done(KeyOutcome(c.(selected := moved), None, None))
         case Down => Done(KeyOutcome(c.(selected := moved), None, None))
         case Esc => Done(KeyOutcome(NextState(CleanSearch(c)), None, None))
         case _ => Done(KeyOutcome(c.(input := EditByKey(c.input, key.code)), None, None)))
  }

  /** Key presses keep the search field's style in step with the state and
      never touch the friend list or its fetch flag. */
  lemma KeyEventKeepsFriends(c: ContactView, mode: Mode, key: KeyEvent, moved: Option<nat>, data: Option<string>,
                             reply: Result<seq<UserDetail>>)
    requires EditingMatches(c)
    requires HandleKeyEvent(c, mode, key, moved, data, reply).Done?
    ensures var c' := HandleKeyEvent(c, mode, key, moved, data, reply).value.contact;
      EditingMatches(c') && c'.friends == c.friends && c'.needFetch == c.needFetch
  {
  }

  /** Opening the search and leaving it again comes back to browsing with
      no results and an empty search field. */
  lemma SearchThenLeave(c: ContactView, e: KeyEvent, esc: KeyEvent, moved: Option<nat>, data: Option<string>,
                        reply: Result<seq<UserDetail>>)
    requires c.state == Friends && e.code == Char('e') && esc.code == Esc
    ensures var c1 := HandleKeyEvent(c, Mode.Contact, e, moved, data, reply).value.contact;
      var c2 := HandleKeyEvent(c1, Mode.Contact, esc, moved, data, reply).value.contact;
      && c2.state == Friends && !c2.input.isEditing
      && c2.searchResult == [] && CurrentInput(c2.input) == []
      && c2.friends == c.friends && c2.selected == c.selected
  {
  }

  /** `update`. `fetched` is what the friend-list request returns. The list
      is fetched, whatever the action, while the screen shows the friend
      list and the flag asks for it; only a success clears the flag. No
      action is returned. */
  function Update(c: ContactView, mode: Mode, action: Action, fetched: Result<seq<Friend>>): (r: (ContactView, Option<Action>))
    ensures r.1.None?
    ensures mode == Mode.Contact && c.state == Friends && c.needFetch && fetched.Ok? ==>
      r.0 == c.(needFetch := false, friends := fetched.value)
    ensures !(mode == Mode.Contact && c.state == Friends && c.needFetch && fetched.Ok?) ==> r.0 == c
  {
    if mode == Mode.Contact && c.state == Friends && c.needFetch then
      match fetched
      case Ok(friends) => (c.(needFetch := false, friends := friends), None)
      case Err(_) => (c, None)
    else (c, None)
  }

  /** The friend list is fetched once: after a successful fetch no later
      update, whatever it returns, changes the screen. */
  lemma FriendsFetchedOnce(c: ContactView, mode: Mode, a: Action, b: Action, f: Result<seq<Friend>>, g: Result<seq<Friend>>)
    requires mode == Mode.Contact && c.state == Friends && c.needFetch && f.Ok?
    ensures var c1 := Update(c, mode, a, f).0;
      c1.friends == f.value && Update(c1, mode, b, g).0 == c1
  {
  }
}

=== FILE: conversation.dfy ===
/** The conversation the recent-chat list hands to the chat view: a row of the
    recent-chat list and the process-wide slot (`CHAT_VO`) that carries the
    open one together with its "history must be fetched" flag. */
module Conversation {
  import opened Base
  import Ev = EventStream

  /** A row of the recent-chat list: the last message of a one-to-one or a
      group conversation. `msgTime` is an abstract timestamp; `unread` is the
      server's unread counter, shown as text. */
  datatype ChatVo =
    | UserVo(uid: int, userName: string, mid: int, msg: string, msgTime: int, unread: Option<string>)
    | GroupVo(gid: int, groupName: string, uid: int, userName: string, mid: int, msg: string,
              msgTime: int, unread: Option<string>)

  /** Where messages of the conversation go: the friend for a one-to-one
      conversation, the group for a group conversation. */
  function Recipient(vo: ChatVo): (t: Ev.MessageTarget)
    ensures vo.UserVo? <==> t.TargetUser?
    ensures vo.UserVo? ==> t.uid == vo.uid
    ensures vo.GroupVo? ==> t.gid == vo.gid
  {
    match vo
    case UserVo(uid, _, _, _, _, _) => Ev.TargetUser(uid)
    case GroupVo(gid, _, _, _, _, _, _, _) => Ev.TargetGroup(gid)
  }

  /** `ChatVoHolder`: the open conversation and whether its history still has
      to be fetched. */
  datatype ChatVoHolder = ChatVoHolder(chatVo: Option<ChatVo>, needFetch: bool)

  /** The slot as the program starts: nothing open, nothing to fetch. */
  function InitialHolder(): (h: ChatVoHolder)
    ensures h.chatVo.None? && !h.needFetch
  {
    ChatVoHolder(None, false)
  }

  /** `set_chat_vo`: opens a conversation and asks for its history, whatever
      was open before. */
  function SetChatVo(h: ChatVoHolder, vo: ChatVo): (r: ChatVoHolder)
    ensures r.chatVo == Some(vo) && r.needFetch
  {
    ChatVoHolder(Some(vo), true)
  }

  /** Publishing twice is publishing the second conversation: nothing of the
      first survives. */
  lemma SetChatVoOverwrites(h: ChatVoHolder, a: ChatVo, b: ChatVo)
    ensures SetChatVo(SetChatVo(h, a), b) == SetChatVo(h, b)
  {
  }
}

=== FILE: event.dfy ===
/** The server-push message stream: the chat message types, the selection of
    the payload line of a server-sent-events frame, the string form of a
    message target, and the component that arms the stream after login. */
module EventStream {
  import opened Base
  import opened Actions

  datatype MessageTarget = TargetUser(uid: int) | TargetGroup(gid: int)

  datatype MessageContent = MessageContent(content: string)

  /** A message body, plain or replying to the message `mid`. */
  datatype MessageDetail = Normal(body: MessageContent) | Replay(mid: int, body: MessageContent)

  /** `createdAt` is the creation time as an abstract timestamp. */
  datatype ChatMessagePayload = ChatMessagePayload(
    fromUid: int,
    createdAt: int,
    target: MessageTarget,
    detail: MessageDetail)

  datatype ChatMessage = ChatMessage(mid: int, payload: ChatMessagePayload)

  /** What one frame of the stream decodes to. */
  datatype Message = ChatMessageMsg(chat: ChatMessage) | Heartbeat(time: int)

  /** `MessageDetail::get_content`. */
  function GetContent(d: MessageDetail): string {
    match d
    case Normal(b) => b.content
    case Replay(_, b) => b.content
  }

  /** The content does not depend on whether, or to what, a message replies. */
  lemma GetContentIgnoresReply(c: MessageContent, m: int, m': int)
    ensures GetContent(Replay(m, c)) == GetContent(Replay(m', c)) == GetContent(Normal(c)) == c.content
  {
  }

  // ---------------------------------------------------------------------
  // The stream component

  /** `Fetch`: whether the stream may start pulling. */
  datatype Fetch = Fetch(need: bool)

  /** `Event::update`: a login arms the stream; nothing disarms it. */
  function Update(f: Fetch, a: Action): (r: (Fetch, Option<Action>))
    ensures r.1.None?
    ensures r.0.need <==> f.need || a == LoginSuccess
  {
    if a == LoginSuccess then (Fetch(true), None) else (f, None)
  }

  function UpdateAll(f: Fetch, actions: seq<Action>): Fetch
    decreases |actions|
  {
    if actions == [] then f else UpdateAll(Update(f, actions[0]).0, actions[1..])
  }

  /** Over any run of actions the flag ends up set exactly when it was set
      before or a login went by. */
  lemma {:induction false} UpdateAllArms(f: Fetch, actions: seq<Action>)
    ensures UpdateAll(f, actions).need <==> f.need || LoginSuccess in actions
    decreases |actions|
  {
    if actions != [] {
      UpdateAllArms(Update(f, actions[0]).0, actions[1..]);
      assert actions == [actions[0]] + actions[1..];
    }
  }

  // ---------------------------------------------------------------------
  // Decimal formatting of identifiers

  function DigitChar(d: nat): char
    requires d < 10
  {
    ('0' as int + d) as char
  }

  predicate IsDigit(c: char) {
    '0' <= c <= '9'
  }

  function DigitValue(c: char): nat {
    if IsDigit(c) then c as int - '0' as int else 0
  }

  /** `{}` of a non-negative integer. */
  function NatToString(n: nat): (s: string)
    ensures |s| > 0
    ensures forall j :: 0 <= j < |s| ==> IsDigit(s[j])
    decreases n
  {
    if n < 10 then [DigitChar(n)] else NatToString(n / 10) + [DigitChar(n % 10)]
  }

  /** `{}` of an `i32`. */
  function IntToString(n: int): string {
    if n < 0 then "-" + NatToString(-n) else NatToString(n)
  }

  /** Reads back a string of decimal digits. */
  function ParseNat(s: string): nat
    decreases |s|
  {
    if s == [] then 0 else ParseNat(s[..|s| - 1]) * 10 + DigitValue(s[|s| - 1])
  }

  lemma {:induction false} NatToStringRoundTrip(n: nat)
    ensures ParseNat(NatToString(n)) == n
    decreases n
  {
    var s := NatToString(n);
    if n >= 10 {
      NatToStringRoundTrip(n / 10);
      assert s[..|s| - 1] == NatToString(n / 10);
    }
  }

  /** The string form starts with a minus sign exactly for negative values. */
  lemma MinusIffNegative(n: int)
    ensures IntToString(n)[0] == '-' <==> n < 0
  {
    if n >= 0 {
      assert IsDigit(NatToString(n)[0]);
    }
  }

  /** Distinct integers have distinct string forms. */
  lemma IntToStringInjective(a: int, b: int)
    requires IntToString(a) == IntToString(b)
    ensures a == b
  {
    var s := IntToString(a);
    MinusIffNegative(a);
    MinusIffNegative(b);
    if a < 0 {
      assert NatToString(-a) == s[1..] == NatToString(-b);
      NatToStringRoundTrip(-a);
      NatToStringRoundTrip(-b);
    } else {
      NatToStringRoundTrip(a);
      NatToStringRoundTrip(b);
    }
  }

  const USER_TARGET_PREFIX: string := "MessageTargetUser:"
  const GROUP_TARGET_PREFIX: string := "MessageTargetGroup:"

  /** `From<MessageTarget> for String`. */
  function TargetToString(t: MessageTarget): string {
    match t
    case TargetUser(uid) => USER_TARGET_PREFIX + IntToString(uid)
    case TargetGroup(gid) => GROUP_TARGET_PREFIX + IntToString(gid)
  }

  /** Distinct targets have distinct string forms. */
  lemma TargetToStringInjective(a: MessageTarget, b: MessageTarget)
    requires TargetToString(a) == TargetToString(b)
    ensures a == b
  {
    var s := TargetToString(a);
    // "MessageTarget" is thirteen characters long; the next one tells the kinds apart
    assert a.TargetUser? <==> s[13] == 'U';
    assert b.TargetUser? <==> s[13] == 'U';
    match a
    case TargetUser(x) =>
      assert IntToString(x) == s[|USER_TARGET_PREFIX|..] == IntToString(b.uid);
      IntToStringInjective(x, b.uid);
    case TargetGroup(x) =>
      assert IntToString(x) == s[|GROUP_TARGET_PREFIX|..] == IntToString(b.gid);
      IntToStringInjective(x, b.gid);
  }

  // ---------------------------------------------------------------------
  // Lines of a frame (`str::lines`)

  predicate NoNewline(l: string) {
    forall j :: 0 <= j < |l| ==> l[j] != '\n'
  }

  /** The index of the first `c` in `s`, or `|s|` when there is none. */
  function IndexOf(s: string, c: char): (i: nat)
    ensures i <= |s|
    ensures i < |s| ==> s[i] == c
    ensures forall j :: 0 <= j < i ==> s[j] != c
    decreases |s|
  {
    if s == [] then 0 else if s[0] == c then 0 else 1 + IndexOf(s[1..], c)
  }

  /** Drops one trailing carriage return. */
  function StripCr(l: string): string {
    if |l| > 0 && l[|l| - 1] == '\r' then l[..|l| - 1] else l
  }

  /** `str::lines`: splits after each `\n`, drops the `\n` and a `\r` just
      before it; a last line without `\n` is kept as it is, and there is no
      empty last line after a final `\n`. */
  function Lines(s: string): (ls: seq<string>)
    ensures forall k :: 0 <= k < |ls| ==> NoNewline(ls[k])
    decreases |s|
  {
    if s == [] then []
    else
      var i := IndexOf(s, '\n');
      if i == |s| then [s] else [StripCr(s[..i])] + Lines(s[i + 1..])
  }

  /** A line followed by a newline is the first line of the text. */
  lemma LinesCons(l: string, rest: string)
    requires NoNewline(l)
    ensures Lines(l + "\n" + rest) == [StripCr(l)] + Lines(rest)
  {
    var s := l + "\n" + rest;
    assert s[|l|] == '\n';
    assert IndexOf(s, '\n') == |l|;
    assert s[..|l|] == l;
    assert s[|l| + 1..] == rest;
  }

  /** Lines joined with newline terminators. */
  function JoinLines(ls: seq<string>): string
    decreases |ls|
  {
    if ls == [] then [] else ls[0] + "\n" + JoinLines(ls[1..])
  }

  /** Splitting joined lines gives the lines back, when no line holds a
      newline or ends in a carriage return. */
  lemma {:induction false} LinesOfJoinLines(ls: seq<string>)
    requires forall k :: 0 <= k < |ls| ==> NoNewline(ls[k]) && StripCr(ls[k]) == ls[k]
    ensures Lines(JoinLines(ls)) == ls
    decreases |ls|
  {
    if ls != [] {
      LinesCons(ls[0], JoinLines(ls[1..]));
      LinesOfJoinLines(ls[1..]);
    }
  }

  // ---------------------------------------------------------------------
  // Trimming

  function StartsWith(s: string, p: string): bool {
    |p| <= |s| && s[..|p|] == p
  }

  /** `char::is_whitespace`: the Unicode White_Space property. */
  predicate IsWhitespace(c: char) {
    var n := c as int;
    || (0x09 <= n <= 0x0D)
    || n == 0x20
    || n == 0x85
    || n == 0xA0
    || n == 0x1680
    || (0x2000 <= n <= 0x200A)
    || n == 0x2028
    || n == 0x2029
    || n == 0x202F
    || n == 0x205F
    || n == 0x3000
  }

  /** `trim_start_matches(p)`: strips `p` from the front as often as it
      occurs there. */
  function TrimStartMatches(s: string, p: string): (r: string)
    requires |p| > 0
    ensures !StartsWith(r, p)
    decreases |s|
  {
    if StartsWith(s, p) then TrimStartMatches(s[|p|..], p) else s
  }

  /** Trimming only ever removes a prefix. */
  lemma {:induction false} TrimStartMatchesSuffix(s: string, p: string)
    requires |p| > 0
    ensures var r := TrimStartMatches(s, p);
      |r| <= |s| && r == s[|s| - |r|..]
    decreases |s|
  {
    if StartsWith(s, p) {
      TrimStartMatchesSuffix(s[|p|..], p);
      var r := TrimStartMatches(s, p);
      assert s[|p|..][|s| - |p| - |r|..] == s[|s| - |r|..];
    }
  }

  function Repeat(p: string, k: nat): string
    decreases k
  {
    if k == 0 then [] else p + Repeat(p, k - 1)
  }

  /** One leading repetition of the pattern is stripped and trimming goes
      on with the rest. */
  lemma TrimStartMatchesStep(p: string, k: nat, t: string)
    requires |p| > 0 && k > 0
    ensures TrimStartMatches(Repeat(p, k) + t, p) == TrimStartMatches(Repeat(p, k - 1) + t, p)
  {
    var s := Repeat(p, k) + t;
    assert s == p + (Repeat(p, k - 1) + t);
    assert s[..|p|] == p;
    assert s[|p|..] == Repeat(p, k - 1) + t;
  }

  /** Any number of repetitions of the pattern are stripped, and nothing
      more. */
  lemma {:induction false} TrimStartMatchesRepeat(p: string, k: nat, t: string)
    requires |p| > 0 && !StartsWith(t, p)
    ensures TrimStartMatches(Repeat(p, k) + t, p) == t
    decreases k
  {
    if k > 0 {
      TrimStartMatchesStep(p, k, t);
      TrimStartMatchesRepeat(p, k - 1, t);
    } else {
      assert Repeat(p, k) + t == t;
    }
  }

  function TrimStart(s: string): (r: string)
    ensures |r| <= |s| && r == s[|s| - |r|..]
    ensures r == [] || !IsWhitespace(r[0])
    ensures forall j :: 0 <= j < |s| - |r| ==> IsWhitespace(s[j])
    decreases |s|
  {
    if s != [] && IsWhitespace(s[0]) then TrimStart(s[1..]) else s
  }

  function TrimEnd(s: string): (r: string)
    ensures |r| <= |s| && r == s[..|r|]
    ensures r == [] || !IsWhitespace(r[|r| - 1])
    ensures forall j :: |r| <= j < |s| ==> IsWhitespace(s[j])
    decreases |s|
  {
    if s != [] && IsWhitespace(s[|s| - 1]) then TrimEnd(s[..|s| - 1]) else s
  }

  /** `str::trim`. */
  function Trim(s: string): string {
    TrimEnd(TrimStart(s))
  }

  // ---------------------------------------------------------------------
  // Selecting the payload of a frame

  const DATA_PREFIX: string := "data:"

  predicate IsDataLine(l: string) {
    StartsWith(l, DATA_PREFIX)
  }

  /** The text handed to the decoder: every leading "data:" removed, then
      trimmed. */
  function Payload(l: string): string {
    Trim(TrimStartMatches(l, DATA_PREFIX))
  }

  /** What one line contributes: the decoding of its payload when it is a
      data line, nothing otherwise. */
  function DecodeLine(l: string, decode: string -> Option<Message>): Option<Message> {
    if IsDataLine(l) then decode(Payload(l)) else None
  }

  /** `find_map`: the first `Some` that `f` yields over the lines. */
  function FindMap<T>(ls: seq<string>, f: string -> Option<T>): Option<T>
    decreases |ls|
  {
    if ls == [] then None
    else
      match f(ls[0])
      case Some(m) => Some(m)
      case None => FindMap(ls[1..], f)
  }

  /** `parse`: `decode` stands for the JSON decoder; a failed decoding is
      `None`. */
  function Parse(sse: string, decode: string -> Option<Message>): Option<Message> {
    FindMap(Lines(sse), l => DecodeLine(l, decode))
  }

  /** `find_map` yields nothing exactly when `f` yields nothing on every
      line. */
  lemma {:induction false} FindMapNone<T>(ls: seq<string>, f: string -> Option<T>)
    ensures FindMap(ls, f).None? <==> forall i :: 0 <= i < |ls| ==> f(ls[i]).None?
    decreases |ls|
  {
    if ls != [] {
      FindMapNone(ls[1..], f);
      if f(ls[0]).None? {
        forall i | 0 < i < |ls|
          ensures f(ls[i]) == f(ls[1..][i - 1])
        {
        }
      }
    }
  }

  /** When `find_map` yields something, it is what `f` yields on the first
      line where it yields anything. */
  lemma {:induction false} FindMapFirst<T>(ls: seq<string>, f: string -> Option<T>)
    ensures FindMap(ls, f).Some? ==>
      exists i :: 0 <= i < |ls|
        && FindMap(ls, f) == f(ls[i])
        && forall j :: 0 <= j < i ==> f(ls[j]).None?
    decreases |ls|
  {
    if ls != [] && FindMap(ls, f).Some? && f(ls[0]).None? {
      FindMapFirst(ls[1..], f);
      var i :| 0 <= i < |ls| - 1
        && FindMap(ls[1..], f) == f(ls[1..][i])
        && forall j :: 0 <= j < i ==> f(ls[1..][j]).None?;
      assert FindMap(ls, f) == f(ls[i + 1]);
      forall j | 0 <= j < i + 1
        ensures f(ls[j]).None?
      {
        if j > 0 {
          assert ls[j] == ls[1..][j - 1];
        }
      }
    }
  }

  /** A frame with no data line parses to nothing, whatever the decoder. */
  lemma ParseWithoutDataLine(sse: string, decode: string -> Option<Message>)
    requires forall k :: 0 <= k < |Lines(sse)| ==> !IsDataLine(Lines(sse)[k])
    ensures Parse(sse, decode).None?
  {
    FindMapNone(Lines(sse), l => DecodeLine(l, decode));
  }

  /** The payload of `data: <json>` is `<json>` when the JSON text has no
      surrounding whitespace. */
  lemma PayloadOfDataLine(json: string)
    requires |json| > 0
    requires !IsWhitespace(json[0]) && !IsWhitespace(json[|json| - 1])
    ensures IsDataLine("data: " + json)
    ensures Payload("data: " + json) == json
  {
    var line := "data: " + json;
    var rest := " " + json;
    assert line[..5] == DATA_PREFIX;
    assert line[5..] == rest;
    assert rest[0] == ' ';
    assert !StartsWith(rest, DATA_PREFIX);
    assert TrimStartMatches(line, DATA_PREFIX) == rest;
    assert rest[1..] == json;
    assert TrimStart(json) == json;
    assert TrimStart(rest) == json;
  }

  /** A frame of one line and a blank line splits into that line and the
      empty line. */
  lemma LinesOfFrame(line: string)
    requires NoNewline(line) && StripCr(line) == line
    ensures Lines(line + "\n\n") == [line, []]
  {
    LinesCons(line, "\n");
    assert line + "\n\n" == line + "\n" + "\n";
    LinesCons([], []);
    assert [] + "\n" + [] == "\n";
    assert Lines([]) == [];
  }

  /** A data line with a trailing blank line decodes to what the data line
      decodes to. */
  lemma FrameFindMap(line: string, decode: string -> Option<Message>)
    ensures FindMap([line, []], l => DecodeLine(l, decode)) == DecodeLine(line, decode)
  {
    var empty: string := [];
    var f := l => DecodeLine(l, decode);
    assert [line, empty][1..] == [empty];
    assert [empty][1..] == [];
    assert f(empty).None?;
    assert FindMap([empty], f).None?;
  }

  /** The data line of a one-line frame is a line in its own right. */
  lemma DataLineIsPlain(json: string)
    requires NoNewline(json) && |json| > 0
    requires !IsWhitespace(json[|json| - 1])
    ensures NoNewline("data: " + json) && StripCr("data: " + json) == "data: " + json
  {
    var line := "data: " + json;
    forall j | 0 <= j < |line| ensures line[j] != '\n' {
      if j >= 6 {
        assert line[j] == json[j - 6];
      }
    }
    assert line[|line| - 1] == json[|json| - 1];
  }

  /** A frame `data: <json>` followed by a blank line parses to the decoding
      of `<json>`, when the JSON text is one line without surrounding
      whitespace. */
  lemma ParseSingleFrame(json: string, decode: string -> Option<Message>)
    requires NoNewline(json) && |json| > 0
    requires !IsWhitespace(json[0]) && !IsWhitespace(json[|json| - 1])
    ensures Parse("data: " + json + "\n\n", decode) == decode(json)
  {
    var line := "data: " + json;
    DataLineIsPlain(json);
    LinesOfFrame(line);
    PayloadOfDataLine(json);
    FrameFindMap(line, decode);
  }
}

=== FILE: group_manager.dfy ===
/** The group manager screen: the members of one group, fetched when a group
    is opened, and an invite field that can be typed into. */
module GroupManagerScreen {
  import opened Base
  import opened Actions
  import opened TextInput

  /** A member of the group as the detail endpoint describes it. */
  datatype GroupUser = GroupUser(id: int, name: string, admin: bool, forbid: bool)

  /** The group detail: its id, its name and its members. */
  datatype DetailRes = DetailRes(groupId: int, name: string, users: seq<GroupUser>)

  /** `GroupDetail` browses the members, `InviteFriend` types into the invite
      field. */
  datatype GroupState = GroupDetail | InviteFriend

  /** `selected` is the row the list selection reports; the list widget that
      keeps it is not part of this model, so each move hands in the row it
      lands on. */
  datatype GroupManagerView = GroupManagerView(
    input: UserInput,
    gid: Option<int>,
    detail: DetailRes,
    state: GroupState,
    selected: Option<nat>)

  /** The invite field is in editing style exactly while inviting. */
  predicate EditingMatches(g: GroupManagerView) {
    g.input.isEditing <==> g.state == GroupState.InviteFriend
  }

  /** `GroupManager::new`: no group open, an empty detail, browsing. */
  function NewGroupManager(): (g: GroupManagerView)
    ensures g.gid.None? && g.detail == DetailRes(0, "", [])
    ensures g.state == GroupDetail && g.selected.None?
    ensures g.input == New(InputData.Search(None))
    ensures EditingMatches(g)
  {
    GroupManagerView(New(InputData.Search(None)), None, DetailRes(0, "", []), GroupDetail, None)
  }

  /** `next_state`: switches between browsing and inviting and puts the
      invite field in the matching style; nothing else changes. */
  function NextState(g: GroupManagerView): (r: GroupManagerView)
    ensures r.state != g.state
    ensures EditingMatches(r)
    ensures r == g.(state := r.state, input := g.input.(isEditing := r.input.isEditing))
  {
    match g.state
    case GroupDetail => g.(state := GroupState.InviteFriend, input := g.input.(isEditing := true))
    case InviteFriend => g.(state := GroupDetail, input := g.input.(isEditing := false))
  }

  /** Switching twice comes back to where it started, as long as the field's
      style matched the state. */
  lemma NextStateTwice(g: GroupManagerView)
    requires EditingMatches(g)
    ensures NextState(NextState(g)) == g
  {
  }

  /** `handle_key_event`: returns the screen and the mode after the key.
      Outside the group manager mode nothing reacts. Esc goes back to the
      chat view in both states (the second Esc arm of the invite state is
      shadowed by the first, so the state itself never changes back); 'e'
      starts inviting; the arrows move the selection; while inviting, Enter
      submits the field (panicking when it holds no committed value) and the
      editing keys edit it. No action is returned. */
  function HandleKeyEvent(g: GroupManagerView, mode: Mode, key: KeyEvent, moved: Option<nat>)
    : (r: Outcome<(GroupManagerView, Mode)>)
    ensures !r.Fail?
    ensures mode != GroupManager ==> r == Done((g, mode))
    ensures r.Panic? <==>
      && mode == GroupManager && g.state == GroupState.InviteFriend && key.code == Enter
      && g.input.inputData.None?
    ensures mode == GroupManager && key.code == Esc ==> r == Done((g, Mode.Chat))
    ensures mode == GroupManager && (key.code == Up || key.code == Down) ==>
      r == Done((g.(selected := moved), mode))
    ensures mode == GroupManager && g.state == GroupDetail ==>
      && (key.code == Char('e') ==> r == Done((NextState(g), mode)))
      && (key.code !in {Esc, Up, Down, Char('e')} ==> r == Done((g, mode)))
    ensures mode == GroupManager && g.state == GroupState.InviteFriend && r.Done? ==>
      && (key.code == Enter ==> r.value == (g.(input := SubmitMessage(g.input).value), mode))
      && (key.code !in {Esc, Up, Down, Enter} ==> r.value == (g.(input := EditByKey(g.input, key.code)), mode))
  {
    if mode != GroupManager then Done((g, mode))
    else
      match g.state
      case GroupDetail =>
        (match key.code
         case Esc => Done((g, Mode.Chat))
         case Char('e') => Done((NextState(g), mode))
         case Up => Done((g.(selected := moved), mode))
         case Down => Done((g.(selected := moved), mode))
         case _ => Done((g, mode)))
      case InviteFriend =>
        (match key.code
         case Esc => Done((g, Mode.Chat))
         case Enter =>
           (match SubmitMessage(g.input)
            case Done(u) => Done((g.(input := u), mode))
            case Panic(why) => Panic(why)
            case Fail(e) => Fail(e))
         case Up => Done((g.(selected := moved), mode))
         case Down => Done((g.(selected := moved), mode))
         case _ => Done((g.(input := EditByKey(g.input, key.code)), mode)))
  }

  /** Once inviting, no key brings the screen back to browsing: the state is
      kept by every key that does not panic, and the field keeps its style. */
  lemma InvitingIsAbsorbing(g: GroupManagerView, mode: Mode, key: KeyEvent, moved: Option<nat>)
    requires g.state == GroupState.InviteFriend && EditingMatches(g)
    requires HandleKeyEvent(g, mode, key, moved).Done?
    ensures var g' := HandleKeyEvent(g, mode, key, moved).value.0;
      g'.state == GroupState.InviteFriend && EditingMatches(g')
  {
  }

  /** Submitting the invite field forgets its committed value, so a second
      Enter while inviting panics. */
  lemma SecondInviteSubmitPanics(g: GroupManagerView, enter: KeyEvent, moved: Option<nat>)
    requires g.state == GroupState.InviteFriend && enter.code == Enter
    requires g.input.inputData.Some?
    ensures HandleKeyEvent(g, GroupManager, enter, moved).Done?
    ensures var o := HandleKeyEvent(g, GroupManager, enter, moved).value;
      HandleKeyEvent(o.0, o.1, enter, moved).Panic?
  {
  }

  /** `update`. `fetched` is what the group-detail request returns. Opening
      a group records its id and switches to the group manager mode; the
      detail is replaced when the request succeeds and kept when it fails
      (the failure is only logged). Every other action changes nothing. No
      action is returned. */
  function Update(g: GroupManagerView, mode: Mode, action: Action, fetched: Result<DetailRes>)
    : (r: (GroupManagerView, Mode, Option<Action>))
    ensures r.2.None?
    ensures action.Group? ==>
      && r.0.gid == Some(action.gid) && r.1 == GroupManager
      && r.0.detail == (if fetched.Ok? then fetched.value else g.detail)
      && r.0 == g.(gid := r.0.gid, detail := r.0.detail)
    ensures !action.Group? ==> r == (g, mode, None)
  {
    match action
    case Group(gid) =>
      var detail := match fetched case Ok(d) => d case Err(_) => g.detail;
      (g.(gid := Some(gid), detail := detail), GroupManager, None)
    case _ => (g, mode, None)
  }

  /** Opening a group and pressing Esc goes back to the chat view with the
      group's members on the screen. */
  lemma OpenThenLeave(g: GroupManagerView, mode: Mode, gid: int, d: DetailRes, esc: KeyEvent, moved: Option<nat>)
    requires esc.code == Esc
    ensures var u := Update(g, mode, Group(gid), Ok(d));
      var k := HandleKeyEvent(u.0, u.1, esc, moved);
      k == Done((u.0, Mode.Chat)) && k.value.0.detail == d && k.value.0.gid == Some(gid)
  {
  }
}

=== FILE: login.dfy ===
/** The login screen: a user-name editor, a password editor, and the cycle
    "idle → editing the name → editing the password → idle". Confirming
    sends the committed name and password and, on success, stores the user
    and opens the recent-chat list. */
module LoginScreen {
  import opened Base
  import opened Actions
  import opened TextInput

  datatype LoginState = Normal | UserNameEditing | PasswordEditing

  datatype LoginForm = LoginForm(userName: UserInput, password: UserInput, state: LoginState)

  /** Only the editor of the field being edited is in editing style. */
  predicate EditingMatches(l: LoginForm) {
    && (l.userName.isEditing <==> l.state == UserNameEditing)
    && (l.password.isEditing <==> l.state == PasswordEditing)
  }

  /** `Login::new`. */
  function NewLogin(): (l: LoginForm)
    ensures l.state == Normal && EditingMatches(l)
    ensures l.userName == New(UserName(None)) && l.password == New(Password(None))
  {
    LoginForm(New(UserName(None)), New(Password(None)), Normal)
  }

  /** `next_state`: idle → name → password → idle, handing the editing style
      along; the editors' contents are not touched. */
  function NextState(l: LoginForm): (r: LoginForm)
    ensures l.state == Normal ==> r.state == UserNameEditing
    ensures l.state == UserNameEditing ==> r.state == PasswordEditing
    ensures l.state == PasswordEditing ==> r.state == Normal
    ensures EditingMatches(l) ==> EditingMatches(r)
    ensures r.userName == l.userName.(isEditing := r.userName.isEditing)
    ensures r.password == l.password.(isEditing := r.password.isEditing)
  {
    match l.state
    case Normal =>
      l.(state := UserNameEditing, userName := l.userName.(isEditing := true))
    case UserNameEditing =>
      l.(state := PasswordEditing, userName := l.userName.(isEditing := false),
         password := l.password.(isEditing := true))
    case PasswordEditing =>
      l.(state := Normal, password := l.password.(isEditing := false))
  }

  /** Three steps of the cycle come back to the same form. */
  lemma NextStateCycle(l: LoginForm)
    requires EditingMatches(l)
    ensures NextState(NextState(NextState(l))) == l
  {
  }

  /** `handle_key_event`. In the idle state only `e` starts editing; while a
      field is edited, Enter submits it and moves on and the editing keys
      edit that field alone. The returned action is always none. */
  function HandleKeyEvent(l: LoginForm, mode: Mode, key: KeyEvent): (r: Outcome<(LoginForm, Option<Action>)>)
    ensures !r.Fail?
    ensures r.Done? ==> r.value.1.None?
    ensures mode != Mode.Login ==> r == Done((l, None))
    ensures r.Panic? <==>
      && mode == Mode.Login && key.code == Enter
      && ((l.state == UserNameEditing && l.userName.inputData.None?) ||
          (l.state == PasswordEditing && l.password.inputData.None?))
    ensures mode == Mode.Login && l.state == Normal ==>
      r == Done((if key.code == Char('e') then NextState(l) else l, None))
    ensures mode == Mode.Login && l.state == UserNameEditing && r.Done? ==>
      if key.code == Enter then
        r.value.0 == NextState(l.(userName := SubmitMessage(l.userName).value))
      else
        r.value.0 == l.(userName := EditByKey(l.userName, key.code))
    ensures mode == Mode.Login && l.state == PasswordEditing && r.Done? ==>
      if key.code == Enter then
        r.value.0 == NextState(l.(password := SubmitMessage(l.password).value))
      else
        r.value.0 == l.(password := EditByKey(l.password, key.code))
  {
    if mode != Mode.Login then Done((l, None))
    else
      match l.state
      case Normal => if key.code == Char('e') then Done((NextState(l), None)) else Done((l, None))
      case UserNameEditing =>
        if key.code == Enter then
          match SubmitMessage(l.userName)
          case Done(u) => Done((NextState(l.(userName := u)), None))
          case Panic(why) => Panic(why)
          case Fail(e) => Fail(e)
        else Done((l.(userName := EditByKey(l.userName, key.code)), None))
      case PasswordEditing =>
        if key.code == Enter then
          match SubmitMessage(l.password)
          case Done(u) => Done((NextState(l.(password := u)), None))
          case Panic(why) => Panic(why)
          case Fail(e) => Fail(e)
        else Done((l.(password := EditByKey(l.password, key.code)), None))
  }

  /** Key presses keep the editing style in step with the state. */
  lemma KeyEventKeepsEditing(l: LoginForm, mode: Mode, key: KeyEvent)
    requires EditingMatches(l)
    requires HandleKeyEvent(l, mode, key).Done?
    ensures EditingMatches(HandleKeyEvent(l, mode, key).value.0)
  {
  }

  /** The login screen over a run of key presses, stopping at the first
      panic. */
  function HandleKeys(l: LoginForm, mode: Mode, keys: seq<KeyEvent>): Outcome<LoginForm>
    decreases |keys|
  {
    if keys == [] then Done(l)
    else match HandleKeyEvent(l, mode, keys[0])
      case Done((l', _)) => HandleKeys(l', mode, keys[1..])
      case Panic(why) => Panic(why)
      case Fail(e) => Fail(e)
  }

  lemma {:induction false} HandleKeysAppend(l: LoginForm, mode: Mode, a: seq<KeyEvent>, b: seq<KeyEvent>)
    requires HandleKeys(l, mode, a).Done?
    ensures HandleKeys(l, mode, a + b) == HandleKeys(HandleKeys(l, mode, a).value, mode, b)
    decreases |a|
  {
    if a == [] {
      assert a + b == b;
    } else {
      assert (a + b)[1..] == a[1..] + b;
      HandleKeysAppend(HandleKeyEvent(l, mode, a[0]).value.0, mode, a[1..], b);
    }
  }

  /** The key presses that type `s`. */
  function TypedKeys(s: string): (keys: seq<KeyEvent>)
    ensures |keys| == |s|
    ensures forall i :: 0 <= i < |s| ==> keys[i] == KeyEvent(Char(s[i]), 0)
  {
    seq(|s|, i requires 0 <= i < |s| => KeyEvent(Char(s[i]), 0))
  }

  /** Typing while the name is edited types into the name editor alone. */
  lemma {:induction false} TypingIntoName(l: LoginForm, s: string)
    requires l.state == UserNameEditing
    ensures HandleKeys(l, Mode.Login, TypedKeys(s)) == Done(l.(userName := ApplyEdits(l.userName, Typing(s))))
    decreases |s|
  {
    if s != [] {
      assert TypedKeys(s)[1..] == TypedKeys(s[1..]);
      assert Typing(s)[1..] == Typing(s[1..]);
      TypingIntoName(l.(userName := EnterChar(l.userName, s[0])), s[1..]);
    }
  }

  /** Typing while the password is edited types into the password editor
      alone. */
  lemma {:induction false} TypingIntoPassword(l: LoginForm, s: string)
    requires l.state == PasswordEditing
    ensures HandleKeys(l, Mode.Login, TypedKeys(s)) == Done(l.(password := ApplyEdits(l.password, Typing(s))))
    decreases |s|
  {
    if s != [] {
      assert TypedKeys(s)[1..] == TypedKeys(s[1..]);
      assert Typing(s)[1..] == Typing(s[1..]);
      TypingIntoPassword(l.(password := EnterChar(l.password, s[0])), s[1..]);
    }
  }

  /** Filling in the form from a fresh screen: `e`, the name, Enter, the
      password, Enter. The form is idle again and each editor has sent
      exactly the text typed into it. */
  lemma FillInForm(name: string, pw: string)
    requires 0 < |name| <= USIZE_MAX && 0 < |pw| <= USIZE_MAX
    ensures var keys := [KeyEvent(Char('e'), 0)] + TypedKeys(name) + [KeyEvent(Enter, 0)]
                        + TypedKeys(pw) + [KeyEvent(Enter, 0)];
      var r := HandleKeys(NewLogin(), Mode.Login, keys);
      && r.Done?
      && r.value.state == Normal
      && r.value.userName.submitted == [UserName(Some(name))]
      && r.value.password.submitted == [Password(Some(pw))]
  {
    var enter := [KeyEvent(Enter, 0)];
    var l0 := NewLogin();
    var l1 := NextState(l0);
    assert HandleKeys(l0, Mode.Login, [KeyEvent(Char('e'), 0)]) == Done(l1);
    TypingIntoName(l1, name);
    assert CurrentInput(l1.userName) == [] && [] + name == name;
    TypingAppends(l1.userName, name);
    var l2 := l1.(userName := ApplyEdits(l1.userName, Typing(name)));
    HandleKeysAppend(l0, Mode.Login, [KeyEvent(Char('e'), 0)], TypedKeys(name));
    assert l2.userName.input == Some(name);
    var l3 := NextState(l2.(userName := SubmitMessage(l2.userName).value));
    assert l3.userName.submitted == [UserName(Some(name))];
    assert HandleKeys(l2, Mode.Login, enter) == Done(l3);
    HandleKeysAppend(l0, Mode.Login, [KeyEvent(Char('e'), 0)] + TypedKeys(name), enter);
    TypingIntoPassword(l3, pw);
    assert CurrentInput(l3.password) == [] && [] + pw == pw;
    TypingAppends(l3.password, pw);
    var l4 := l3.(password := ApplyEdits(l3.password, Typing(pw)));
    HandleKeysAppend(l0, Mode.Login, [KeyEvent(Char('e'), 0)] + TypedKeys(name) + enter, TypedKeys(pw));
    assert l4.password.input == Some(pw);
    var l5 := NextState(l4.(password := SubmitMessage(l4.password).value));
    assert l5.userName == l3.userName;
    assert HandleKeys(l4, Mode.Login, enter) == Done(l5);
    HandleKeysAppend(l0, Mode.Login, [KeyEvent(Char('e'), 0)] + TypedKeys(name) + enter + TypedKeys(pw), enter);
  }

  // ---------------------------------------------------------------------
  // Confirming

  /** The credentials sent to the login endpoint. */
  datatype Credentials = Credentials(userName: string, password: string)

  /** What a confirmation leaves behind: the mode, the logged-in user, the
      request that was sent, and the action returned to the loop. */
  datatype LoginOutcome = LoginOutcome(mode: Mode, current: CurrentUser, request: Option<Credentials>, emitted: Option<Action>)

  /** `update`. `nameData` and `pwData` are the texts the two editors report
      as committed (both unwrapped), `reply` is the login endpoint's answer
      (the access token, or the error message), and `parse` decodes a token
      into its claims (`None` when the token is invalid, which panics). A
      failure is reported as an alert whose confirmation does nothing; a
      success stores the user and opens the recent-chat list without
      returning an action. */
  function Update(mode: Mode, action: Action, nameData: Option<string>, pwData: Option<string>,
                  reply: Result<string>, parse: string -> Option<User>, current: CurrentUser): (r: Outcome<LoginOutcome>)
    ensures !r.Fail?
    ensures !(mode == Mode.Login && action == PlainConfirm) ==> r == Done(LoginOutcome(mode, current, None, None))
    ensures mode == Mode.Login && action == PlainConfirm ==>
      && (r.Panic? <==> nameData.None? || pwData.None? || (reply.Ok? && parse(reply.value).None?))
      && (r.Done? ==> r.value.request == Some(Credentials(nameData.value, pwData.value)))
      && (r.Done? && reply.Ok? ==>
            && r.value.mode == RecentChat
            && r.value.current == CurrentUser(parse(reply.value), Some(reply.value))
            && r.value.emitted.None?)
      && (r.Done? && reply.Err? ==>
            && r.value.mode == mode
            && r.value.current == current
            && r.value.emitted == Some(Action.Alert(reply.error, Some(Nothing))))
  {
    if !(mode == Mode.Login && action == PlainConfirm) then Done(LoginOutcome(mode, current, None, None))
    else if nameData.None? || pwData.None? then Panic("called `Option::unwrap()` on a `None` value")
    else
      var request := Some(Credentials(nameData.value, pwData.value));
      match reply
      case Ok(token) =>
        (match parse(token)
         case Some(claims) => Done(LoginOutcome(RecentChat, CurrentUser(Some(claims), Some(token)), request, None))
         case None => Panic("called `Result::unwrap()` on an `Err` value"))
      case Err(e) => Done(LoginOutcome(mode, current, request, Some(Action.Alert(e, Some(Nothing)))))
  }

  /** A confirmation never announces the login: whatever the reply, the
      screen returns no `LoginSuccess`, so nothing downstream that waits for
      it is woken by this screen. */
  lemma NoLoginSuccessEmitted(mode: Mode, action: Action, nameData: Option<string>, pwData: Option<string>,
                              reply: Result<string>, parse: string -> Option<User>, current: CurrentUser)
    requires Update(mode, action, nameData, pwData, reply, parse, current).Done?
    ensures Update(mode, action, nameData, pwData, reply, parse, current).value.emitted != Some(LoginSuccess)
  {
  }

  /** The screen leaves the login mode only through a successful login, and
      then a user is logged in. */
  lemma LeavesLoginOnlyOnSuccess(mode: Mode, action: Action, nameData: Option<string>, pwData: Option<string>,
                                 reply: Result<string>, parse: string -> Option<User>, current: CurrentUser)
    requires mode == Mode.Login
    requires Update(mode, action, nameData, pwData, reply, parse, current).Done?
    ensures var o := Update(mode, action, nameData, pwData, reply, parse, current).value;
      o.mode != Mode.Login <==> action == PlainConfirm && reply.Ok?
    ensures var o := Update(mode, action, nameData, pwData, reply, parse, current).value;
      o.mode != Mode.Login ==> o.current.user.Some? && o.current.token == Some(reply.value)
  {
  }
}

=== FILE: navigation.dfy ===
/** The navigation bar: three tabs, the NextTab action that walks the main
    modes round, and the padding that spreads the tabs over the bar. */
module NavigationBar {
  import opened Base
  import opened Actions

  /** The tabs, in declaration order (their `usize` representation is the
      position). */
  datatype NavigationItem = RecentChat | Contact | Setting

  /** `item as usize`. */
  function Index(item: NavigationItem): (i: nat)
    ensures i < 3
  {
    match item
    case RecentChat => 0
    case Contact => 1
    case Setting => 2
  }

  /** `NavigationItem::from_repr`: the tab at a position, if there is one. */
  function FromRepr(i: nat): (r: Option<NavigationItem>)
    ensures r.Some? <==> i < 3
  {
    if i == 0 then Some(NavigationItem.RecentChat)
    else if i == 1 then Some(NavigationItem.Contact)
    else if i == 2 then Some(NavigationItem.Setting)
    else None
  }

  /** Positions and tabs are in one-to-one correspondence. */
  lemma FromReprRoundTrip(item: NavigationItem, i: nat)
    ensures FromRepr(Index(item)) == Some(item)
    ensures i < 3 ==> Index(FromRepr(i).value) == i
  {
  }

  /** `circle`: the following tab, the last one wrapping to the first. */
  function Circle(item: NavigationItem): (r: NavigationItem)
    ensures Index(r) == (Index(item) + 1) % 3
  {
    match item
    case RecentChat => NavigationItem.Contact
    case Contact => NavigationItem.Setting
    case Setting => NavigationItem.RecentChat
  }

  /** Going round three times is going nowhere, and no fewer steps are. */
  lemma CircleThrice(item: NavigationItem)
    ensures Circle(Circle(Circle(item))) == item
    ensures Circle(item) != item && Circle(Circle(item)) != item
  {
  }

  /** `previous`: the tab before, staying on the first one. */
  function Previous(item: NavigationItem): (r: NavigationItem)
    ensures Index(item) == 0 ==> r == item
    ensures Index(item) > 0 ==> Index(r) == Index(item) - 1
  {
    FromRepr(SaturatingSub(Index(item), 1)).GetOr(item)
  }

  /** `next`: the tab after, staying on the last one. */
  function Next(item: NavigationItem): (r: NavigationItem)
    ensures Index(item) == 2 ==> r == item
    ensures Index(item) < 2 ==> Index(r) == Index(item) + 1
  {
    FromRepr(SaturatingAddUsize(Index(item), 1)).GetOr(item)
  }

  /** `previous` undoes `next` except on the last tab, and the other way
      round except on the first. */
  lemma PreviousNextInverse(item: NavigationItem)
    ensures item != NavigationItem.Setting ==> Previous(Next(item)) == item
    ensures item != NavigationItem.RecentChat ==> Next(Previous(item)) == item
  {
    FromReprRoundTrip(item, 0);
  }

  /** The bar: the highlighted tab. */
  datatype Navigation = Navigation(item: NavigationItem)

  /** `Navigation::new`: the first tab is highlighted. */
  function NewNavigation(): (n: Navigation)
    ensures Index(n.item) == 0
  {
    Navigation(NavigationItem.RecentChat)
  }

  /** The mode the bar's `next` moves to: the three main modes in a cycle,
      every other mode unchanged. */
  function NextMode(m: Mode): (r: Mode)
    ensures m in {Mode.RecentChat, Mode.Contact, Mode.Setting} <==> r in {Mode.RecentChat, Mode.Contact, Mode.Setting}
    ensures m !in {Mode.RecentChat, Mode.Contact, Mode.Setting} ==> r == m
    ensures m in {Mode.RecentChat, Mode.Contact, Mode.Setting} ==> r != m
  {
    match m
    case RecentChat => Mode.Contact
    case Contact => Mode.Setting
    case Setting => Mode.RecentChat
    case _ => m
  }

  /** `Navigation::next` as written: the next tab is computed and dropped,
      so the highlight stays where it is while the mode moves on. */
  function NavNext(n: Navigation, m: Mode): (r: (Navigation, Mode))
    ensures r.1 == NextMode(m)
    ensures r.0 == n
  {
    var _ := Circle(n.item);
    (n, NextMode(m))
  }

  /** `update`: NextTab moves on while one of the three main modes is
      active; nothing else reacts. No action is returned. */
  function Update(n: Navigation, m: Mode, action: Action): (r: (Navigation, Mode, Option<Action>))
    ensures r.2.None?
    ensures action == NextTab && m in {Mode.RecentChat, Mode.Contact, Mode.Setting} ==>
      (r.0, r.1) == NavNext(n, m)
    ensures !(action == NextTab && m in {Mode.RecentChat, Mode.Contact, Mode.Setting}) ==> r == (n, m, None)
  {
    if action == NextTab && m in {Mode.RecentChat, Mode.Contact, Mode.Setting} then
      var (n', m') := NavNext(n, m);
      (n', m', None)
    else (n, m, None)
  }

  /** The tab that stands for a main mode. */
  function TabOf(m: Mode): (r: Option<NavigationItem>)
    ensures r.Some? <==> m in {Mode.RecentChat, Mode.Contact, Mode.Setting}
  {
    match m
    case RecentChat => Some(NavigationItem.RecentChat)
    case Contact => Some(NavigationItem.Contact)
    case Setting => Some(NavigationItem.Setting)
    case _ => None
  }

  /** Three NextTab actions bring a main mode back to itself, passing
      through the other two. */
  lemma ThreeTabsComeBack(n: Navigation, m: Mode)
    requires m in {Mode.RecentChat, Mode.Contact, Mode.Setting}
    ensures var r1 := Update(n, m, NextTab);
      var r2 := Update(r1.0, r1.1, NextTab);
      var r3 := Update(r2.0, r2.1, NextTab);
      && r3.1 == m && r3.0 == n
      && {m, r1.1, r2.1} == {Mode.RecentChat, Mode.Contact, Mode.Setting}
  {
  }

  /** As written, the highlight falls out of step with the mode on the
      first NextTab: starting on the first tab in the recent-chat mode, the
      mode becomes Contact while the first tab stays highlighted. */
  lemma HighlightLagsMode()
    ensures var r := Update(NewNavigation(), Mode.RecentChat, NextTab);
      r.1 == Mode.Contact && TabOf(r.1) != Some(r.0.item)
  {
  }

  /** `Navigation::next` as evidently intended: the highlight moves to the
      next tab together with the mode. */
  function NavNextIntended(n: Navigation, m: Mode): (r: (Navigation, Mode))
    ensures r.1 == NextMode(m)
    ensures Index(r.0.item) == (Index(n.item) + 1) % 3
  {
    (Navigation(Circle(n.item)), NextMode(m))
  }

  /** `update` with the intended `next`. */
  function UpdateIntended(n: Navigation, m: Mode, action: Action): (r: (Navigation, Mode, Option<Action>))
    ensures r.2.None?
    ensures action == NextTab && m in {Mode.RecentChat, Mode.Contact, Mode.Setting} ==>
      (r.0, r.1) == NavNextIntended(n, m)
    ensures !(action == NextTab && m in {Mode.RecentChat, Mode.Contact, Mode.Setting}) ==> r == (n, m, None)
  {
    if action == NextTab && m in {Mode.RecentChat, Mode.Contact, Mode.Setting} then
      var (n', m') := NavNextIntended(n, m);
      (n', m', None)
    else (n, m, None)
  }

  /** With the intended `next`, a highlight that shows the active main mode
      keeps showing it after any action. */
  lemma IntendedHighlightFollowsMode(n: Navigation, m: Mode, action: Action)
    requires TabOf(m) == Some(n.item)
    ensures var r := UpdateIntended(n, m, action);
      TabOf(r.1) == Some(r.0.item)
  {
  }

  /** With the intended `next`, NextTab in a main mode moves the mode on and
      the highlight with it: the highlight shows the new mode and sits one
      tab further round. */
  lemma HighlightAdvancesWithMode(n: Navigation, m: Mode)
    requires TabOf(m) == Some(n.item)
    ensures var r := UpdateIntended(n, m, NextTab);
      && r.1 == NextMode(m) && r.1 != m
      && TabOf(r.1) == Some(r.0.item)
      && Index(r.0.item) == (Index(n.item) + 1) % 3
  {
  }

  /** Display width of a character in a CJK context: the ideographs of the
      CJK Unified Ideographs block take two columns, every other character
      of the tab labels one. */
  function CjkWidth(c: char): (w: nat)
    ensures 1 <= w <= 2
  {
    if '\U{4E00}' <= c <= '\U{9FFF}' then 2 else 1
  }

  function StrWidth(s: string): nat {
    if s == [] then 0 else CjkWidth(s[0]) + StrWidth(s[1..])
  }

  /** The tab labels (the `Display` strings). */
  function Label(item: NavigationItem): string {
    match item
    case RecentChat => "\U{6700}\U{8FD1}\U{804A}\U{5929}"
    case Contact => "\U{6211}\U{7684}\U{597D}\U{53CB}"
    case Setting => "\U{6211}\U{7684}\U{8BBE}\U{7F6E}"
  }

  /** The room the tabs need: each label plus four columns, plus two. */
  function NaviWidth(): nat {
    (StrWidth(Label(NavigationItem.RecentChat)) + 4)
      + (StrWidth(Label(NavigationItem.Contact)) + 4)
      + (StrWidth(Label(NavigationItem.Setting)) + 4)
      + 2
  }

  /** Every label is four ideographs, so the tabs need 38 columns. */
  lemma NaviWidthIs38()
    ensures NaviWidth() == 38
  {
    assert StrWidth(Label(NavigationItem.RecentChat)) == 8;
    assert StrWidth(Label(NavigationItem.Contact)) == 8;
    assert StrWidth(Label(NavigationItem.Setting)) == 8;
  }

  /** `cal_padding`: the spare width shared out to both sides of the three
      tabs; none when the bar is narrower than the tabs. */
  function CalPadding(area: Rect): (p: nat)
    ensures area.width < NaviWidth() ==> p == 0
    ensures area.width >= NaviWidth() ==>
      NaviWidth() + 6 * p <= area.width < NaviWidth() + 6 * (p + 1)
  {
    if area.width < NaviWidth() then 0 else (area.width - NaviWidth()) / (3 * 2)
  }

  /** With the padding on both sides of every tab the tabs still fit. */
  lemma PaddedTabsFit(area: Rect)
    ensures NaviWidth() + 6 * CalPadding(area) <= Max(area.width, NaviWidth())
  {
  }
}

=== FILE: recent_chat.dfy ===
/** The recent-chat list: the conversations fetched after login, a selection
    moved with the arrow keys, and the hand-over of the selected row to the
    chat view through the shared conversation slot. */
module RecentChatList {
  import opened Base
  import opened Actions
  import opened Conversation

  /** `selected` is the row the list selection reports; the list widget that
      keeps it is not part of this model, so each move hands in the row it
      lands on. */
  datatype RecentChatView = RecentChatView(items: seq<ChatVo>, selected: Option<nat>)

  /** `RecentChat::new` (the polling thread it could start is disabled in
      the code). */
  function NewRecentChat(): (r: RecentChatView)
    ensures r.items == [] && r.selected.None?
  {
    RecentChatView([], None)
  }

  /** Whether the selection designates a row of the list. */
  predicate HasValidSelection(r: RecentChatView) {
    r.selected.Some? && r.selected.value < |r.items|
  }

  /** `send_chat`: publishes the selected row to the chat view, asking for
      its history; with no selection, or one past the end, the slot is left
      as it was. */
  function SendChat(r: RecentChatView, h: ChatVoHolder): (h': ChatVoHolder)
    ensures HasValidSelection(r) ==> h' == SetChatVo(h, r.items[r.selected.value])
    ensures !HasValidSelection(r) ==> h' == h
  {
    match r.selected
    case Some(i) => if i < |r.items| then SetChatVo(h, r.items[i]) else h
    case None => h
  }

  /** Whatever the slot holds after a hand-over was either there before or is
      a row of the list. */
  lemma SendChatPublishesARow(r: RecentChatView, h: ChatVoHolder)
    ensures var h' := SendChat(r, h);
      h' == h || (h'.chatVo.Some? && h'.chatVo.value in r.items && h'.needFetch)
  {
  }

  datatype KeyOutcome = KeyOutcome(list: RecentChatView, mode: Mode, holder: ChatVoHolder, emitted: Option<Action>)

  /** `handle_key_event`. `moved` is the row the selection lands on after an
      arrow key. Down and Up move and hand the row over; Enter opens the
      chat view; nothing else reacts, and nothing reacts outside the list
      mode. No action is returned. */
  function HandleKeyEvent(r: RecentChatView, mode: Mode, h: ChatVoHolder, key: KeyEvent, moved: Option<nat>)
    : (o: KeyOutcome)
    ensures o.emitted.None?
    ensures mode != Mode.RecentChat ==> o == KeyOutcome(r, mode, h, None)
    ensures mode == Mode.RecentChat && (key.code == Down || key.code == Up) ==>
      && o.list == r.(selected := moved)
      && o.mode == mode
      && o.holder == SendChat(o.list, h)
    ensures mode == Mode.RecentChat && key.code == Enter ==> o == KeyOutcome(r, Mode.Chat, h, None)
    ensures mode == Mode.RecentChat && key.code !in {Down, Up, Enter} ==> o == KeyOutcome(r, mode, h, None)
  {
    if mode != Mode.RecentChat then KeyOutcome(r, mode, h, None)
    else
      match key.code
      case Down =>
        var r' := r.(selected := moved);
        KeyOutcome(r', mode, SendChat(r', h), None)
      case Up =>
        var r' := r.(selected := moved);
        KeyOutcome(r', mode, SendChat(r', h), None)
      case Enter => KeyOutcome(r, Mode.Chat, h, None)
      case _ => KeyOutcome(r, mode, h, None)
  }

  /** The list never changes its rows on a key press, and the only mode it
      switches to is the chat view. */
  lemma KeyEventKeepsRows(r: RecentChatView, mode: Mode, h: ChatVoHolder, key: KeyEvent, moved: Option<nat>)
    ensures HandleKeyEvent(r, mode, h, key, moved).list.items == r.items
    ensures HandleKeyEvent(r, mode, h, key, moved).mode in {mode, Mode.Chat}
  {
  }

  /** `update`. `fetched` is what the recent-conversations request returns.
      On a login with a user present the rows are replaced wholesale when
      the request succeeds and kept when it fails (the failure is only
      logged); every other action leaves the list alone. No action is
      returned. */
  function Update(r: RecentChatView, action: Action, current: CurrentUser, fetched: Result<seq<ChatVo>>)
    : (o: (RecentChatView, Option<Action>))
    ensures o.1.None?
    ensures o.0.selected == r.selected
    ensures action == LoginSuccess && current.user.Some? && fetched.Ok? ==> o.0.items == fetched.value
    ensures !(action == LoginSuccess && current.user.Some? && fetched.Ok?) ==> o.0 == r
  {
    if action == LoginSuccess && current.user.Some? then
      match fetched
      case Ok(items) => (r.(items := items), None)
      case Err(_) => (r, None)
    else (r, None)
  }

  /** Choosing a row with an arrow key and pressing Enter opens the chat view
      on that very conversation, with its history asked for. */
  lemma ChooseThenOpen(r: RecentChatView, h: ChatVoHolder, down: KeyEvent, enter: KeyEvent, i: nat)
    requires down.code == Down && enter.code == Enter
    requires i < |r.items|
    ensures var o1 := HandleKeyEvent(r, Mode.RecentChat, h, down, Some(i));
      var o2 := HandleKeyEvent(o1.list, o1.mode, o1.holder, enter, None);
      && o2.mode == Mode.Chat
      && o2.holder.chatVo == Some(r.items[i])
      && o2.holder.needFetch
  {
  }
}

=== FILE: user_input.dfy ===
/** The single-line text editor embedded in the login, chat, contact and
    group screens. The buffer is a sequence of Unicode scalar values and the
    cursor counts characters; byte offsets appear only where the editor asks
    for the UTF-8 position of the cursor. */
module TextInput {
  import opened Base
  import opened Actions

  /** The committed value an editor hands to its owner, tagged with the kind
      of field. `Search` is used by the contact and group screens although
      the enum in user_input.rs does not list it. */
  datatype InputData =
    | UserName(data: Option<string>)
    | Password(data: Option<string>)
    | ChatMsg(data: Option<string>)
    | Search(data: Option<string>)

  predicate SameKind(a: InputData, b: InputData) {
    || (a.UserName? && b.UserName?)
    || (a.Password? && b.Password?)
    || (a.ChatMsg? && b.ChatMsg?)
    || (a.Search? && b.Search?)
  }

  /** `InputData::set_input`: replaces the carried text, keeps the kind. */
  function SetInput(d: InputData, text: Option<string>): (r: InputData)
    ensures r.data == text
    ensures SameKind(r, d)
  {
    match d
    case UserName(_) => UserName(text)
    case Password(_) => Password(text)
    case ChatMsg(_) => ChatMsg(text)
    case Search(_) => Search(text)
  }

  /** The editor. `input` is `None` until the first edit ("untouched"), which
      is distinct from an empty buffer. `submitted` is what has been sent on
      the editor's own channel, oldest first. */
  datatype UserInput = UserInput(
    input: Option<string>,
    inputData: Option<InputData>,
    cursor: nat,
    cursorPosition: Option<Position>,
    isEditing: bool,
    submitted: seq<InputData>)

  /** `UserInput::new(data)` as the screens call it. */
  function New(data: InputData): (u: UserInput)
    ensures CurrentInput(u) == [] && u.input.None?
    ensures u.cursor == 0 && CursorInRange(u)
    ensures u.inputData == Some(data)
    ensures !u.isEditing && u.submitted == []
  {
    UserInput(None, Some(data), 0, None, false, [])
  }

  /** `current_input`: the buffer, empty when untouched. */
  function CurrentInput(u: UserInput): string {
    u.input.GetOr([])
  }

  function CharCount(u: UserInput): nat {
    |CurrentInput(u)|
  }

  /** The editor invariant: the cursor sits on a character boundary. */
  predicate CursorInRange(u: UserInput) {
    u.cursor <= CharCount(u)
  }

  /** `clamp_cursor`: `clamp(0, count)`; the lower bound never binds on an
      unsigned position. */
  function ClampCursor(u: UserInput, pos: nat): (r: nat)
    ensures r <= CharCount(u)
  {
    Min(pos, CharCount(u))
  }

  function SetCurrentInput(u: UserInput, s: string): UserInput {
    u.(input := Some(s))
  }

  function MoveCursorLeft(u: UserInput): (r: UserInput)
    ensures CursorInRange(r)
    ensures r == u.(cursor := r.cursor)
    ensures u.cursor == 0 ==> r.cursor == 0
    ensures CursorInRange(u) && u.cursor > 0 ==> r.cursor == u.cursor - 1
  {
    u.(cursor := ClampCursor(u, SaturatingSub(u.cursor, 1)))
  }

  function MoveCursorRight(u: UserInput): (r: UserInput)
    ensures CursorInRange(r)
    ensures r == u.(cursor := r.cursor)
    ensures u.cursor >= CharCount(u) && u.cursor <= USIZE_MAX ==> r.cursor == CharCount(u)
    ensures u.cursor < CharCount(u) && u.cursor < USIZE_MAX ==> r.cursor == u.cursor + 1
  {
    u.(cursor := ClampCursor(u, SaturatingAddUsize(u.cursor, 1)))
  }

  /** The character position `enter_char` inserts at: the cursor, or the end
      of the buffer when the cursor lies beyond it (`unwrap_or(len)`). */
  function InsertPosition(u: UserInput): nat {
    Min(u.cursor, CharCount(u))
  }

  /** `enter_char`: inserts `c` at the cursor and moves the cursor right. */
  function EnterChar(u: UserInput, c: char): (r: UserInput)
    ensures var s, k := CurrentInput(u), InsertPosition(u);
      && |CurrentInput(r)| == |s| + 1
      && CurrentInput(r)[k] == c
      && CurrentInput(r)[..k] == s[..k]
      && CurrentInput(r)[k + 1..] == s[k..]
    ensures r.input.Some?
    ensures CursorInRange(r)
    ensures CursorInRange(u) && u.cursor < USIZE_MAX ==> r.cursor == u.cursor + 1
    ensures r == u.(input := r.input, cursor := r.cursor)
  {
    var s := CurrentInput(u);
    var k := InsertPosition(u);
    MoveCursorRight(SetCurrentInput(u, s[..k] + [c] + s[k..]))
  }

  /** `delete_char`: removes the character before the cursor. */
  function DeleteChar(u: UserInput): (r: UserInput)
    ensures u.cursor == 0 ==> r == u
    ensures u.cursor > 0 && CursorInRange(u) ==>
      var s, i := CurrentInput(u), u.cursor - 1;
      && |CurrentInput(r)| == |s| - 1
      && CurrentInput(r)[..i] == s[..i]
      && CurrentInput(r)[i..] == s[i + 1..]
      && r.cursor == i
      && r.input.Some?
    ensures CursorInRange(r)
    ensures r == u.(input := r.input, cursor := r.cursor)
  {
    if u.cursor == 0 then u
    else
      var s := CurrentInput(u);
      // `chars().take(cursor - 1)` chained with `chars().skip(cursor)`
      var before := s[..Min(u.cursor - 1, |s|)];
      var after := s[Min(u.cursor, |s|)..];
      MoveCursorLeft(SetCurrentInput(u, before + after))
  }

  function ResetCursor(u: UserInput): UserInput {
    u.(cursor := 0, cursorPosition := None)
  }

  /** `reset`: forgets the buffer, the committed value and the cursor. */
  function Reset(u: UserInput): (r: UserInput)
    ensures r.input.None? && r.inputData.None?
    ensures r.cursor == 0 && r.cursorPosition.None?
    ensures CurrentInput(r) == [] && CursorInRange(r)
    ensures r.isEditing == u.isEditing && r.submitted == u.submitted
  {
    ResetCursor(u.(input := None, inputData := None))
  }

  lemma ResetIdempotent(u: UserInput)
    ensures Reset(Reset(u)) == Reset(u)
  {
  }

  /** `submit_message`: takes the committed value (panicking when there is
      none), sends it carrying the raw buffer, then resets the editor. */
  function SubmitMessage(u: UserInput): (r: Outcome<UserInput>)
    ensures r.Panic? <==> u.inputData.None?
    ensures !r.Fail?
    ensures r.Done? ==>
      var n := |u.submitted|;
      && |r.value.submitted| == n + 1
      && r.value.submitted[..n] == u.submitted
      && r.value.submitted[n].data == u.input
      && SameKind(r.value.submitted[n], u.inputData.value)
      && r.value == Reset(u).(submitted := r.value.submitted)
  {
    match u.inputData
    case None => Panic("called `Option::unwrap()` on a `None` value")
    case Some(d) =>
      // the receiving end lives in the same editor, so the send cannot fail
      Done(Reset(u.(submitted := u.submitted + [SetInput(d, u.input)])))
  }

  /** `set_cursor_position`: one column right of the region's left border
      plus the cursor, one row below its top border; the `u16` additions
      panic on overflow. */
  function SetCursorPosition(u: UserInput, area: Rect): (r: Outcome<UserInput>)
    ensures !r.Fail?
    ensures r.Done? <==> IsU16(area.x + AsU16(u.cursor) + 1) && IsU16(area.y + 1)
    ensures r.Done? ==> r.value == u.(cursorPosition := r.value.cursorPosition)
    ensures r.Done? && IsU16(u.cursor) ==>
      r.value.cursorPosition == Some(Position(area.x + u.cursor + 1, area.y + 1))
  {
    var x := area.x + AsU16(u.cursor) + 1;
    var y := area.y + 1;
    if IsU16(x) && IsU16(y) then Done(u.(cursorPosition := Some(Position(x, y))))
    else Panic("attempt to add with overflow")
  }

  /** When the cursor fits inside a bordered region, the terminal cursor is
      placed strictly inside the region, on its first text row. */
  lemma CursorInsideRegion(u: UserInput, area: Rect)
    requires area.Fits()
    requires u.cursor + 2 <= area.width && 2 <= area.height
    ensures SetCursorPosition(u, area).Done?
    ensures var p := SetCursorPosition(u, area).value.cursorPosition.value;
      && area.x < p.x < area.x + area.width
      && area.y < p.y < area.y + area.height
  {
  }

  /** `cal_high`: the height of an input panel holding `inputSize` fields of
      three rows plus a border, at least a fifth of the area. */
  function CalHigh(inputSize: nat, area: Rect): (r: Outcome<nat>)
    ensures !r.Fail?
    ensures r.Done? <==> inputSize * 3 + 2 <= USIZE_MAX
    ensures r.Done? ==>
      && r.value >= area.height / 5
      && r.value >= AsU16(inputSize * 3 + 2)
      && (r.value == area.height / 5 || r.value == AsU16(inputSize * 3 + 2))
    ensures r.Done? && IsU16(inputSize * 3 + 2) ==> r.value >= inputSize * 3 + 2
    ensures r.Panic? && inputSize * 3 > USIZE_MAX ==> r.reason == "attempt to multiply with overflow"
    ensures r.Panic? && inputSize * 3 <= USIZE_MAX ==> r.reason == "attempt to add with overflow"
  {
    if inputSize * 3 > USIZE_MAX then Panic("attempt to multiply with overflow")
    else if inputSize * 3 + 2 > USIZE_MAX then Panic("attempt to add with overflow")
    else
      var total := AsU16(inputSize * 3 + 2);
      if area.height / 5 > total then Done(area.height / 5) else Done(total)
  }

  // ---------------------------------------------------------------------
  // UTF-8 offsets

  /** Number of UTF-8 bytes that encode `c`. */
  function Utf8Width(c: char): (w: nat)
    ensures 1 <= w <= 4
  {
    if c as int < 0x80 then 1
    else if c as int < 0x800 then 2
    else if c as int < 0x10000 then 3
    else 4
  }

  /** Number of UTF-8 bytes that encode `s`. */
  function Utf8Len(s: string): nat {
    if s == [] then 0 else Utf8Width(s[0]) + Utf8Len(s[1..])
  }

  lemma {:induction false} Utf8LenAppend(a: string, b: string)
    ensures Utf8Len(a + b) == Utf8Len(a) + Utf8Len(b)
    decreases |a|
  {
    if a == [] {
      assert a + b == b;
    } else {
      assert (a + b)[1..] == a[1..] + b;
      Utf8LenAppend(a[1..], b);
    }
  }

  /** Every character takes at least one byte, so a proper prefix is
      strictly shorter in bytes. */
  lemma {:induction false} Utf8LenProperPrefix(s: string, k: nat)
    requires k < |s|
    ensures Utf8Len(s[..k]) < Utf8Len(s)
  {
    assert s == s[..k] + s[k..];
    Utf8LenAppend(s[..k], s[k..]);
    assert s[k..][0] == s[k];
  }

  lemma {:induction false} Utf8LenAscii(s: string)
    requires forall j :: 0 <= j < |s| ==> s[j] as int < 0x80
    ensures Utf8Len(s) == |s|
    decreases |s|
  {
    if s != [] {
      Utf8LenAscii(s[1..]);
    }
  }

  /** `byte_index`: the UTF-8 offset of the cursor's character, or the byte
      length of the buffer when the cursor is at or past its end. */
  method ByteIndex(u: UserInput) returns (b: nat)
    ensures b == Utf8Len(CurrentInput(u)[..InsertPosition(u)])
    ensures b <= Utf8Len(CurrentInput(u))
    ensures b == Utf8Len(CurrentInput(u)) <==> u.cursor >= CharCount(u)
    ensures (forall j :: 0 <= j < CharCount(u) ==> CurrentInput(u)[j] as int < 0x80) ==>
      b == InsertPosition(u)
  {
    var s := CurrentInput(u);
    // walk `char_indices()` up to the cursor's character
    var i, offset := 0, 0;
    while i < |s| && i < u.cursor
      invariant i <= |s| && i <= u.cursor
      invariant offset == Utf8Len(s[..i])
    {
      assert s[..i + 1] == s[..i] + [s[i]];
      Utf8LenAppend(s[..i], [s[i]]);
      offset := offset + Utf8Width(s[i]);
      i := i + 1;
    }
    if i < |s| {
      b := offset;
      Utf8LenProperPrefix(s, i);
    } else {
      assert s[..i] == s;
      b := Utf8Len(s);
    }
    if forall j :: 0 <= j < |s| ==> s[j] as int < 0x80 {
      Utf8LenAscii(s[..InsertPosition(u)]);
    }
  }

  /** Inserting a character at the cursor's character position is inserting
      its UTF-8 bytes at the cursor's byte offset: the prefix before the
      offset keeps its bytes and the new character follows it. */
  lemma EnterCharAtByteOffset(u: UserInput, c: char)
    ensures var s, s', k := CurrentInput(u), CurrentInput(EnterChar(u, c)), InsertPosition(u);
      && Utf8Len(s'[..k]) == Utf8Len(s[..k])
      && Utf8Len(s'[..k + 1]) == Utf8Len(s[..k]) + Utf8Width(c)
      && Utf8Len(s') == Utf8Len(s) + Utf8Width(c)
  {
    var s, s', k := CurrentInput(u), CurrentInput(EnterChar(u, c)), InsertPosition(u);
    assert s' == s[..k] + [c] + s[k..];
    assert s'[..k + 1] == s[..k] + [c];
    Utf8LenAppend(s[..k], [c]);
    Utf8LenAppend(s[..k] + [c], s[k..]);
    Utf8LenAppend(s[..k], s[k..]);
    assert s == s[..k] + s[k..];
  }

  // ---------------------------------------------------------------------
  // Editing sessions

  /** The key-driven edits the screens forward to an editor. */
  datatype Edit = Insert(c: char) | DeleteBefore | CursorLeft | CursorRight

  function ApplyEdit(u: UserInput, e: Edit): UserInput {
    match e
    case Insert(c) => EnterChar(u, c)
    case DeleteBefore => DeleteChar(u)
    case CursorLeft => MoveCursorLeft(u)
    case CursorRight => MoveCursorRight(u)
  }

  function ApplyEdits(u: UserInput, es: seq<Edit>): UserInput
    decreases |es|
  {
    if es == [] then u else ApplyEdits(ApplyEdit(u, es[0]), es[1..])
  }

  /** Any sequence of edits keeps the cursor on a character boundary and
      leaves the committed value, the editing flag and the channel alone. */
  lemma {:induction false} EditsKeepInvariant(u: UserInput, es: seq<Edit>)
    requires CursorInRange(u)
    ensures CursorInRange(ApplyEdits(u, es))
    ensures ApplyEdits(u, es).inputData == u.inputData
    ensures ApplyEdits(u, es).isEditing == u.isEditing
    ensures ApplyEdits(u, es).submitted == u.submitted
    decreases |es|
  {
    if es != [] {
      EditsKeepInvariant(ApplyEdit(u, es[0]), es[1..]);
    }
  }

  /** Typing a character and deleting it again restores the buffer and the
      cursor; an untouched buffer comes back as an empty one. */
  lemma EnterThenDelete(u: UserInput, c: char)
    requires CursorInRange(u) && u.cursor < USIZE_MAX
    ensures DeleteChar(EnterChar(u, c)) == u.(input := Some(CurrentInput(u)))
  {
    var s, k := CurrentInput(u), u.cursor;
    var v := EnterChar(u, c);
    var w := DeleteChar(v);
    assert CurrentInput(v) == s[..k] + [c] + s[k..];
    assert CurrentInput(w) == s[..k] + s[k..];
    assert s[..k] + s[k..] == s;
  }

  /** After editing a field that holds a committed value, submitting succeeds
      and sends exactly the typed text, and leaves the editor in its reset
      state. */
  lemma SubmitAfterEdits(u: UserInput, es: seq<Edit>)
    requires CursorInRange(u) && u.inputData.Some?
    ensures var e := ApplyEdits(u, es);
      && e.submitted == u.submitted
      && SubmitMessage(e).Done?
      && SubmitMessage(e).value.submitted[|u.submitted|].data == e.input
      && Reset(SubmitMessage(e).value) == SubmitMessage(e).value
      && CurrentInput(SubmitMessage(e).value) == []
  {
    EditsKeepInvariant(u, es);
  }

  /** The edit a key stands for in every editing sub-state of the screens:
      a character is typed, Backspace deletes, Left and Right move. */
  function EditOfKey(code: KeyCode): (e: Option<Edit>)
    ensures e.Some? <==> code.Char? || code == Backspace || code == Left || code == Right
  {
    match code
    case Char(ch) => Some(Insert(ch))
    case Backspace => Some(DeleteBefore)
    case Left => Some(CursorLeft)
    case Right => Some(CursorRight)
    case _ => None
  }

  /** An editor after a key press in an editing sub-state: the key's edit,
      or nothing for a key that is not an editing key. */
  function EditByKey(u: UserInput, code: KeyCode): (r: UserInput)
    ensures code.Char? ==> r == EnterChar(u, code.c)
    ensures code == Backspace ==> r == DeleteChar(u)
    ensures code == Left ==> r == MoveCursorLeft(u)
    ensures code == Right ==> r == MoveCursorRight(u)
    ensures EditOfKey(code).None? ==> r == u
  {
    match EditOfKey(code)
    case Some(e) => ApplyEdit(u, e)
    case None => u
  }

  /** The edits that type `s` character by character. */
  function Typing(s: string): (es: seq<Edit>)
    ensures |es| == |s|
    ensures forall i :: 0 <= i < |s| ==> es[i] == Insert(s[i])
  {
    seq(|s|, i requires 0 <= i < |s| => Insert(s[i]))
  }

  /** Typing with the cursor at the end of the buffer appends the text and
      leaves the cursor at the new end. */
  lemma {:induction false} TypingAppends(u: UserInput, s: string)
    requires u.cursor == CharCount(u)
    requires CharCount(u) + |s| <= USIZE_MAX
    ensures CurrentInput(ApplyEdits(u, Typing(s))) == CurrentInput(u) + s
    ensures ApplyEdits(u, Typing(s)).cursor == CharCount(u) + |s|
    ensures |s| > 0 ==> ApplyEdits(u, Typing(s)).input == Some(CurrentInput(u) + s)
    ensures ApplyEdits(u, Typing(s)) == u.(input := ApplyEdits(u, Typing(s)).input, cursor := CharCount(u) + |s|)
    decreases |s|
  {
    if s == [] {
      assert Typing(s) == [];
      assert CurrentInput(u) + s == CurrentInput(u);
    } else {
      var v := EnterChar(u, s[0]);
      assert CurrentInput(v) == CurrentInput(u) + [s[0]];
      assert Typing(s)[1..] == Typing(s[1..]);
      TypingAppends(v, s[1..]);
      assert CurrentInput(u) + [s[0]] + s[1..] == CurrentInput(u) + s;
      if |s| == 1 {
        assert Typing(s[1..]) == [];
      }
    }
  }
}
